=== FILE: README.md ===
# Weather bot core, modelled in Dafny

A Discord bot relays OpenWeather data into chat. It offers three slash
commands, `/temp`, `/rain` and `/forecast`, and a loop that posts an alert
to the `weather-alerts` channel every six hours. Each job follows the same
steps. It fetches a JSON payload and checks the provider's embedded status
code (`ensure_success`). It then renders the payload into a message, or
reports the error.

This project models those steps as pure functions over decoded JSON
(`Json.Json`):

- the status check (`Provider`);
- the four message formatters (`Formatters`, over the line vocabulary in
  `Messages`);
- the routing of a reply through the initial response or a follow-up, and
  the three commands (`Commands`);
- one tick of the defensive alert loop (`Commands.AlertTick`);
- configuration loading, `_coerce_int` and `load_config`, over an
  environment map (`Settings`).

Three parts of the output share one shape: the current-weather message,
the alert message, and a forecast entry's inline extras. Each shows one
item for every field that holds a number, in a fixed order. The two
messages put those lines between a fixed header with a description line
and a fixed trailer. `Layout.Pick` states that shape once. For each of the
three, the lemmas prove:

- which fields produce an item, as an if-and-only-if against the payload;
- that the item shows the payload's own number;
- that the items keep the fixed order.

The rain message has a different shape: a header, then exactly one
rainfall line, then the description, then the provenance line. Its
rainfall line falls back from the last hour to the last three hours to
"no rain recorded" (`Formatters.RainLines`). The forecast message is a
header, one line per entry in input order, and the provenance line; each
entry's line carries its extras inline (`Formatters.ForecastLines`).

Python's truthiness and its `isinstance(x, (int, float))` are modelled as
Python defines them. So `True` counts as the number 1, and an empty string
or a zero counts as "not set".

A payload the Python code would crash on becomes a precondition. Examples
are `"weather": []`, a `main` that is not an object, or a description that
is not a string. These are the `...Shaped` predicates. The model does not
treat such payloads as a defined error result, because the bot has no
handler for them.

Code that turns numbers into text is left as parameters (`Messages.Renderer`):

- the `:.1f` float formatting;
- `str()` of a float, list or dict;
- the local-time `%H:%M` clock;
- `str.capitalize`.

Two details of the code that the model follows as written:

- The chance of rain is shown as `int(pop * 100)`, which truncates toward
  zero (`Messages.Percent`).
- The forecast header and the command's description both say "6 giờ tới"
  ("next 6 hours"), but the command shows at most the first three entries
  (`ForecastLimit`).

`load_config` reads `LANG` from the environment like every other setting.
`LANG` is also the POSIX locale variable. So when the JSON document sets no
language, a process started under a locale such as `C.UTF-8` requests that
locale as the provider's language instead of the default `vi`.
`Settings.LocaleBecomesLanguage` states this behaviour.

## Model

| member | source | states |
|---|---|---|
| `Numbers.NatToStringRoundTrip` | bot.py:32 | the decimal text of a natural is a valid digit string whose value is that natural |
| `Numbers.IntToStringRoundTrip` | bot.py:32 | `int(str(i)) == i` for every integer, negatives included |
| `Numbers.IntToStringIs200` | bot.py:118 | `str(i) == "200"` holds for the integer 200 and no other |
| `Numbers.StripLeft` | bot.py:32 | the result is a suffix of the input, what was removed is all whitespace, and the result does not start with whitespace |
| `Numbers.StripRight` | bot.py:32 | the result is a prefix of the input, what was removed is all whitespace, and the result does not end with whitespace |
| `Numbers.StripPadded` | bot.py:32 | `strip()` removes surrounding whitespace and nothing else |
| `Numbers.StripPaddedDecimal` | bot.py:32 | stripping padded decimal text gives exactly the decimal text |
| `Numbers.ParseInt` | bot.py:32 | text `int()` accepts holds only digits, underscores and one leading sign, starts with a digit after the sign, ends in a digit, and has no two underscores in a row |
| `Numbers.MisplacedUnderscoreRejected` | bot.py:32 | an underscore first, last, right after the sign or next to another underscore makes `int()` raise |
| `Numbers.DigitsValueAppend` | bot.py:32 | appending digits shifts the value read so far by one decimal place per digit |
| `Numbers.SignedValue` | bot.py:32 | a leading `+` keeps the value of the digits and a leading `-` negates it |
| `Numbers.LeadingZerosKeepValue` | bot.py:32 | leading zeros do not change the value `int()` reads |
| `Numbers.UnderscoreKeepsValue` | bot.py:32 | a single underscore between digits does not change the value `int()` reads |
| `Numbers.SignAndZerosExamples` | bot.py:32 | `int("+5")` is 5 and `int("007")` is 7 |
| `Numbers.UnderscoreExample` | bot.py:32 | `int("1_000")` is 1000 |
| `Numbers.UnderscoreRejectExamples` | bot.py:32 | `int("_1")` and `int("1__0")` raise |
| `Numbers.StripKeeps` | bot.py:32 | `strip()` keeps every character that is not whitespace |
| `Numbers.Strip` | bot.py:32 | `strip()` never lengthens its input, and neither end of the result is whitespace |
| `Numbers.StripIsSlice` | bot.py:32 | `strip()` returns a contiguous slice of its input, and what it cuts from either end is all whitespace |
| `Numbers.IntToString` | bot.py:118 | `str(i)` is non-empty, starts with '-' exactly for a negative integer, and otherwise holds only ASCII digits |
| `Numbers.NatToString` | bot.py:118 | `str(n)` of a natural is non-empty and all ASCII digits |
| `Numbers.TruncTowardZero` | bot.py:200 | `int(x)` on a number is the integer next to `x` on the side toward zero, for both signs |
| `Json.AsNumber` | bot.py:138 | `isinstance(v, (int, float))` holds exactly for bools, ints and floats; the number keeps the value, and it is truthy exactly when non-zero |
| `Json.Get` | bot.py:117 | `d.get(k)` is present exactly when `k` is a key, and then holds that key's value |
| `Json.Child` | bot.py:125-127 | `d.get(k, {})` is the empty object when `k` is absent, else the object stored under `k` |
| `Json.At` | bot.py:130-134 | a one- or two-level `.get` chain finds a value exactly when every key on the way is present |
| `Json.NumberAt` | bot.py:138-147 | a field yields a number exactly when the chain finds a value and that value is a number, and the number is that value |
| `Layout.Values` | bot.py:130-147 | a field has a number exactly when it is one of the message's fields and its path holds a number, and that number is the payload's |
| `Layout.CountAtMost` | bot.py:138-147 | a message has no more measurement lines than it has fields |
| `Layout.PickDistinct` | bot.py:138-147 | picking from an order that lists each field once never picks a field twice |
| `Layout.PickCount` | bot.py:138-147 | one line is emitted per field that has a number |
| `Layout.PickContents` | bot.py:138-147 | a reading is emitted exactly when its field is in the order and has that number |
| `Layout.PickOrdered` | bot.py:138-147 | the emitted readings keep the order of the field list |
| `Layout.PickHas` | bot.py:138-147 | one reading is emitted exactly when its field is listed and has that number |
| `Provider.PrintsAs200` | bot.py:118 | only an integer or a string can satisfy `str(code) == "200"`; `str` of None, a bool, a float, a list or a dict never does |
| `Provider.PrintsAs200Exactly` | bot.py:118 | the status codes `str(code) == "200"` accepts are exactly the integer 200 and the string "200" |
| `Provider.EnsureSuccess` | bot.py:116-120 | the check passes exactly when `cod` is absent, None, 200 or "200"; a failure carries the payload's `message`, or the fixed fallback when there is none |
| `Provider.FetchChecked` | bot.py:83-90 | an unreachable provider gives the fixed fetch-failure text; a fetched payload is passed on exactly when the status check passes, else the check's message is the error; this is the `try` around the fetch and `ensure_success` in each command and in the alert (bot.py:253-255, 265-267, 277-279, 299-301) |
| `Messages.Percent` | bot.py:200 | `int(pop * 100)` is within one of the percentage, toward zero, for both signs |
| `Messages.ExtraText` | bot.py:193-202 | every forecast extra renders as non-empty text |
| `Messages.Show` | bot.py:143-147 | `str(v)` and `{v}` show a string as itself and an integer as decimal text that `int()` reads back as that integer (also the `{error}` of bot.py:257) |
| `Messages.Text` | bot.py:136-239 | the definition is the model: each line's exact f-string text, with the source's literals; no line is empty |
| `Messages.Join` | bot.py:150 | `sep.join(parts)` is empty for no parts and begins with the first part, followed by the separator when more parts follow (also the joins at bot.py:172, 204, 211 and 240) |
| `Messages.JoinEnds` | bot.py:150 | `sep.join(parts)` begins with the first part and ends with the last |
| `Messages.JoinEmpty` | bot.py:204-205 | joining non-empty parts gives the empty text exactly when there are no parts |
| `Messages.Message` | bot.py:150 | a message begins with its first line's text and ends with its last line's text |
| `Messages.SlotDetail` | bot.py:204-208 | an entry's " • detail" suffix appears exactly when the entry has an extra, and the suffix is the extras joined by " • " |
| `Formatters.Description` | bot.py:124-129 | the description is the first weather entry's `description`, or "Không rõ" when the entry or the key is missing |
| `Formatters.CurrentMeasures` | bot.py:138-147 | one measurement line per reading, in order, and no other measurement lines |
| `Formatters.CurrentLines` | bot.py:136-150 | header, then the description, then one line per numeric measurement, then provenance |
| `Formatters.CurrentLinesShowNumbers` | bot.py:130-147 | a measurement line showing `n` appears exactly when the payload holds the number `n` at that measurement's path |
| `Formatters.CurrentLinesShowOne` | bot.py:130-147 | the same, for one measurement |
| `Formatters.CurrentLinesOrdered` | bot.py:138-147 | measurement lines follow the order temperature, feels-like, humidity, wind, clouds |
| `Formatters.FormatCurrentWeather` | bot.py:123-150 | the message opens with the city header and closes with the provenance line |
| `Formatters.RainLines` | bot.py:153-172 | four lines with exactly one rainfall line, second; the 1-hour figure wins when it is a number, then the 3-hour figure, else "no rain recorded" |
| `Formatters.FormatRain` | bot.py:153-172 | the message opens with the rain header and closes with the provenance line |
| `Formatters.ExtraValues` | bot.py:186-202 | an entry has an extra exactly when its path holds a number, and the rain extra also needs a positive number |
| `Formatters.Extras` | bot.py:192-202 | an entry shows at most five extras |
| `Formatters.ExtrasShowNumbers` | bot.py:186-202 | an extra showing `n` appears exactly when the entry holds `n` there, with rain only when `n > 0` |
| `Formatters.ExtrasShowOne` | bot.py:186-202 | the same, for one extra |
| `Formatters.ExtrasOrdered` | bot.py:192-202 | extras follow the order temperature, feels-like, rain, chance of rain, wind |
| `Formatters.SlotLine` | bot.py:179-208 | an entry's line has no time exactly when `dt` is missing or falsy, else `dt`'s value; it has the entry's description and extras |
| `Formatters.SlotLines` | bot.py:178-208 | one line per entry, in input order |
| `Formatters.ForecastLines` | bot.py:176-210 | header, then one line per entry in input order, then provenance |
| `Formatters.FormatForecast` | bot.py:175-211 | the message opens with the forecast header and closes with the provenance line |
| `Formatters.AlertMeasures` | bot.py:228-237 | one measurement line per reading, in order, and no other measurement lines |
| `Formatters.AlertLines` | bot.py:226-240 | header, then the outlook, then one line per numeric measurement, then the "prepare" line |
| `Formatters.AlertLinesShowNumbers` | bot.py:220-237 | a measurement line showing `n` appears exactly when the entry holds the number `n` there; a rain figure of zero is shown too |
| `Formatters.AlertLinesShowOne` | bot.py:220-237 | the same, for one measurement |
| `Formatters.AlertLinesOrdered` | bot.py:228-237 | measurement lines follow the order temperature, feels-like, rain, chance of rain, wind |
| `Formatters.AlertLinesWithoutProvenance` | bot.py:239 | the alert never carries the provenance line |
| `Formatters.FormatAlert` | bot.py:214-240 | the message opens with the alert header and closes with the "prepare" line |
| `Formatters.Counterpart` | bot.py:186-190 | each alert measurement has a forecast extra that reads the same path, at the same rank |
| `Formatters.AlertMatchesExtras` | bot.py:197-233 | for one entry, the alert shows a measurement exactly when the forecast shows the same extra with the same number, except that the alert also shows a rain figure that is not positive |
| `Formatters.AlertMatchesOne` | bot.py:197-233 | the same, for one measurement |
| `Formatters.ZeroRainShownOnlyInAlert` | bot.py:197-232 | a rain figure of zero is an alert line but never a forecast extra |
| `Formatters.NoRainExtra` | bot.py:197 | a rain figure that is not positive gives no rain extra |
| `Settings.CoerceInt` | bot.py:25-35 | None and "" mean "not set"; an int is kept, with a bool as 1 or 0; text is stripped and parsed, or rejected as "must be a numeric ID."; any other value is rejected as "must be a string of digits or an integer." |
| `Settings.CoerceIntReadsDecimal` | bot.py:30-32 | decimal text with any whitespace around it reads back as its integer |
| `Settings.CoerceIntRejectsBlank` | bot.py:31-34 | non-empty text that is only whitespace is rejected as not numeric |
| `Settings.CoerceIntRejectsForeign` | bot.py:31-34 | text holding a character that is not whitespace, a digit, an underscore or a sign is rejected as not numeric |
| `Settings.BlankStripsToEmpty` | bot.py:32 | stripping text that is only whitespace leaves nothing |
| `Settings.Setting` | bot.py:48-60 | `payload.get(k) or os.getenv(k)` is the document's value when truthy, else the non-empty environment value, else nothing |
| `Settings.Resolve` | bot.py:56-58 | a setting with a default takes the document's value, then the environment's, then the default, and is always truthy |
| `Settings.Document` | bot.py:39-46 | an unset or empty `BOT_CONFIG` is the empty document; otherwise the document is decoded, and invalid JSON is an error |
| `Settings.LoadConfig` | bot.py:38-70 | errors come in the order `load_config` checks them: invalid JSON, then missing token, then missing API key, then a bad guild ID; a loaded configuration holds each setting by precedence, and a guild ID only when it is set |
| `Settings.LoadedConfigIsComplete` | bot.py:48-58 | a loaded configuration has a truthy token, API key, city, units and language |
| `Settings.EnvironmentOnly` | bot.py:38-70 | with only a token and an API key in the environment, the configuration is those two, the defaults, and no guild |
| `Settings.LocaleBecomesLanguage` | bot.py:58 | an environment `LANG` becomes the provider language when the document sets none |
| `Settings.GuildIdFromText` | bot.py:60-61 | a guild ID given as padded decimal text loads as that integer |
| `Commands.Respond` | bot.py:243-247 | each answer appends exactly one message; it is a follow-up exactly when the interaction was already answered, and the interaction is answered afterwards |
| `Commands.RespondTwice` | bot.py:243-247 | a fresh interaction answered twice gets an initial response, then one follow-up |
| `Commands.FailureReply` | bot.py:256-257 | an error notice is private and is its command's prefix followed by `str(error)` |
| `Commands.FailureNotice` | bot.py:251-281 | every command answers a failed fetch or status check with its own prefix followed by the error's text, privately |
| `Commands.ProviderMessageShown` | bot.py:116-120 | a payload the status check rejects is answered with the provider's `message` after the command's prefix |
| `Commands.UnreachableShown` | bot.py:85-89 | an unreachable provider is answered with the fixed fetch-failure text after the command's prefix |
| `Commands.CityNotFound` | bot.py:116-120 | `{"cod": 404, "message": "city not found"}` makes `/temp` answer with the weather-error prefix followed by "city not found" |
| `Commands.ForecastEntries` | bot.py:284 | the forecast uses the first `min(3, n)` entries, in order, and none when `list` is absent or the empty string |
| `Commands.EmptyTextListIsNoData` | bot.py:284-286 | an empty-string `list` gets the private "no data" notice |
| `Commands.CityName` | bot.py:136 | `{CONFIG.city}` of a string city is that string |
| `Commands.CommandReply` | bot.py:251-289 | each command answers a failure privately with its own prefix and the error's text, and a success publicly unless it is the forecast's "no data" notice |
| `Commands.TempReply` | bot.py:251-260 | `/temp` replies with the private weather-error notice on failure, else with the public current-weather message |
| `Commands.RainReply` | bot.py:263-272 | `/rain` replies with the private rain-error notice on failure, else with the public rain message |
| `Commands.ForecastReply` | bot.py:275-289 | `/forecast` replies with the private forecast-error notice on failure, with the private "no data" notice when there are no entries, else with the public forecast of the first entries |
| `Commands.Invoke` | bot.py:243-289 | one command invocation sends exactly one reply, the command's, routed by whether the interaction was already answered |
| `Commands.FailuresAreMarked` | bot.py:251-289 | a reply starts with the warning sign exactly when the fetch or the status check failed |
| `Commands.PrivateReplies` | bot.py:251-289 | a reply is private exactly when it is an error notice or the "no data" notice |
| `Commands.FirstNamed` | bot.py:295 | the channel lookup finds nothing exactly when no channel has the name, else the first channel that has it |
| `Commands.AlertTick` | bot.py:293-310 | the forecast is fetched exactly when the alert channel exists; an alert is posted exactly when the fetch and the status check pass and the list is truthy; it goes to the first channel of that name and is the alert message for the first entry |
| `Commands.PostedAlertsClose` | bot.py:309 | every posted alert closes with the "prepare" line |

## Left out

- HTTP (`fetch_json`, `requests`, the timeout and the query parameters): a fetch is the parameter `Provider.FetchOutcome`, either a decoded object or a failure. `response.json()` returning a non-object is not modelled. Neither is a 2xx body that is not JSON: `response.json()` (bot.py:90) sits outside the `try`, so its decode error is not a RuntimeError. It escapes the commands' `except RuntimeError`, so the command sends no reply. In `weather_alert` the error escapes too. With requests 2.27 or later it is `requests.exceptions.JSONDecodeError`, an `OSError`, which `tasks.loop` (with its default `reconnect=True`) absorbs: it backs off and runs the body again. With older requests it is `json.JSONDecodeError`, a `ValueError`, which stops the loop. `Commands.Invoke`'s one reply per invocation holds only because `FetchOutcome` has no case for this.
- Time is not modelled. Each command fetches with a blocking `requests.get(..., timeout=10)` (bot.py:79, 86) before it answers, and it never defers the interaction. Discord accepts an initial response only within 3 seconds. After a slower fetch, `interaction.response.send_message` (bot.py:247) goes to an expired interaction and raises, so the user sees nothing. A fetch that times out raises only after 10 seconds, so the fetch-failure notice of `Commands.UnreachableShown` never arrives. The one reply of `Commands.Invoke` and the routing of `Commands.Respond` are therefore what the code sends when the fetch finishes inside that window.
- `json.loads` is the parameter `decode`. The model requires a valid `BOT_CONFIG` to decode to an object, because the bot calls `.get` on it.
- The Discord runtime: the connection, command registration, `on_ready` and `tree.sync`, the six-hour timer and `tasks.loop` start-up. `Commands.AlertTick` models a single run of the loop body.
- Float text (`:.1f`, `str()` of a float, list or dict), the local-time clock and `str.capitalize` are the `Messages.Renderer` parameters.
- The `Messages.Renderer` functions are total, so the model emits a line where these conversions raise:
  - `datetime.fromtimestamp(dt)` on a `dt` outside the platform's time range (bot.py:180);
  - `int(pop * 100)` when the float product overflows to infinity, an OverflowError (bot.py:200, 235);
  - `:.1f` of a JSON integer too large for a float (bot.py:139 and the other `:.1f` lines).
- Messages.Percent: computes `int(pop * 100)` over the reals, so binary floating-point rounding (0.29 * 100 is 28.999…) is not modelled. NaN and the infinities are not part of `Json.Json`.
- Numbers.ParseInt: accepts only ASCII digits, while Python's `int()` also accepts other Unicode decimal digits.
- Numbers.ParseInt: has no length limit. CPython 3.11 and later (and the matching security releases) reject text of more than 4300 digits, and `str()` of such an integer raises. The bot would then reject such a guild ID as "must be a numeric ID." (bot.py:32-34), where `Settings.CoerceInt` returns the integer. So `Numbers.IntToStringRoundTrip` and `Settings.CoerceIntReadsDecimal` hold as stated only for integers of at most 4300 digits.
- Payloads the bot would crash on are preconditions rather than results. These are a `weather` that is not a list, is empty, or whose first element is not an object, a `main`, `wind`, `clouds` or `rain` that is neither absent nor an object, a non-string description, a truthy non-numeric `dt`, and a `list` that is neither a list nor the empty string. The empty string slices to itself and is falsy, so it gets the "no data" notice, and the model handles it (`Commands.EmptyTextListIsNoData`).
- Settings.CoerceInt: a bool guild ID is kept as the integer 1 or 0, which is the value of Python's `True` and `False` but not its type.
- The second definitions of `weather_alert` and `on_ready` (bot.py:324-339) are not modelled. They rebind both names, so the loop that actually runs is the version that indexes `data["list"][0]` directly and does not check the status. The model follows the defensive version (bot.py:293-310). The `on_ready` that runs (bot.py:336-339) never calls `tree.sync`, so this process does not register the slash commands; they exist only if an earlier run registered them. It also calls `weather_alert.start()` without checking `is_running()`, so a second `on_ready` after a reconnect raises.
- `Config` as a frozen dataclass, `get_weather` and `get_forecast` (query building only), and `bot.run` are not modelled.

=== FILE: commands.dfy ===
/** The slash commands `/temp`, `/rain` and `/forecast`, how their replies
    are routed, and one tick of the periodic weather alert. Each command
    fetches once, checks the payload, and answers with exactly one reply: a
    private error notice, a private "no data" notice, or the formatted
    message. */
module Commands {
  import opened Wrappers
  import opened Json
  import opened Provider
  import opened Messages
  import opened Formatters
  import Settings

  const WarningMark: string := "⚠️ "
  const WeatherFailurePrefix: string := WarningMark + "Không thể lấy dữ liệu thời tiết: "
  const RainFailurePrefix: string := WarningMark + "Không thể lấy dữ liệu lượng mưa: "
  const ForecastFailurePrefix: string := WarningMark + "Không thể lấy dữ liệu dự báo: "
  const NoForecastText: string := "Không có dữ liệu dự báo vào lúc này."

  /** The forecast command shows at most this many entries. */
  const ForecastLimit: nat := 3

  /** Name of the channel the alert is posted to. */
  const AlertChannelName: string := "weather-alerts"

  // ---------------------------------------------------------------------------
  // Replies and their routing
  // ---------------------------------------------------------------------------

  /** A reply to an interaction; an ephemeral one is shown only to the user. */
  datatype Reply = Reply(text: string, ephemeral: bool)

  /** `interaction.response.send_message` or `interaction.followup.send`. */
  datatype Route = InitialResponse | FollowUp

  datatype Sent = Sent(route: Route, reply: Reply)

  /** What the bot has sent for one interaction so far, and whether Discord
      reports the interaction as answered (`response.is_done()`). */
  datatype Interaction = Interaction(responded: bool, sent: seq<Sent>)

  /** `send_interaction_response`: the first answer is the initial response,
      every later one a follow-up. Discord marks the interaction answered
      once a response has been sent. */
  function Respond(it: Interaction, reply: Reply): (r: Interaction)
    ensures |r.sent| == |it.sent| + 1
    ensures r.sent[..|it.sent|] == it.sent
    ensures r.sent[|it.sent|].reply == reply
    ensures r.sent[|it.sent|].route == FollowUp <==> it.responded
    ensures r.responded
  {
    var route := if it.responded then FollowUp else InitialResponse;
    Interaction(true, it.sent + [Sent(route, reply)])
  }

  /** Answering a fresh interaction twice sends the initial response and then
      one follow-up. */
  lemma RespondTwice(first: Reply, second: Reply)
    ensures Respond(Respond(Interaction(false, []), first), second).sent
            == [Sent(InitialResponse, first), Sent(FollowUp, second)]
  {
    var once := Respond(Interaction(false, []), first);
    assert once.sent == [Sent(InitialResponse, first)];
  }

  // ---------------------------------------------------------------------------
  // The commands
  // ---------------------------------------------------------------------------

  datatype Command = Temp | Rain | Forecast

  /** The city as the messages show it: `str(CONFIG.city)`. */
  function CityName(cfg: Settings.Config, rend: Renderer): (s: string)
    ensures cfg.city.Str? ==> s == cfg.city.s
  {
    Show(cfg.city, rend)
  }

  /** The private notice for a failed fetch or a provider error; `error` is
      the value the RuntimeError carries. */
  function FailureReply(prefix: string, error: Json, rend: Renderer): (r: Reply)
    ensures r.ephemeral
    ensures StartsWith(r.text, prefix)
    ensures EndsWith(r.text, Show(error, rend))
    ensures |r.text| == |prefix| + |Show(error, rend)|
  {
    Reply(prefix + Show(error, rend), true)
  }

  /** The prefix of each command's error notice. */
  function FailurePrefix(cmd: Command): string {
    match cmd
    case Temp => WeatherFailurePrefix
    case Rain => RainFailurePrefix
    case Forecast => ForecastFailurePrefix
  }

  /** The payload shape the command's formatter reads without raising, for
      every payload that passes the status check. */
  predicate Formattable(cmd: Command, fetch: FetchOutcome) {
    fetch.Fetched? && EnsureSuccess(fetch.payload).Accepted? ==>
      match cmd
      case Temp => CurrentShaped(fetch.payload)
      case Rain => RainShaped(fetch.payload)
      case Forecast => ForecastShaped(fetch.payload)
  }

  /** `data.get("list", [])[:3]` yields forecast entries the formatter can
      read. The empty string slices to itself and is falsy, so it is read as
      "no entries"; any other non-list value raises. */
  predicate ForecastShaped(d: Object) {
    || "list" !in d
    || d["list"] == Str("")
    || (&& d["list"].Arr?
        && forall i :: 0 <= i < |d["list"].items| && i < ForecastLimit ==> EntryShaped(d["list"].items[i]))
  }

  /** `data.get("list", [])[:3]`: the first entries of the forecast, in order. */
  function ForecastEntries(d: Object): (r: seq<Json>)
    requires ForecastShaped(d)
    ensures "list" !in d || d["list"] == Str("") ==> r == []
    ensures "list" in d && d["list"].Arr? ==>
              var items := d["list"].items;
              |r| == (if |items| < ForecastLimit then |items| else ForecastLimit)
              && forall i :: 0 <= i < |r| ==> r[i] == items[i]
    ensures forall i :: 0 <= i < |r| ==> EntryShaped(r[i])
  {
    if "list" !in d || !d["list"].Arr? then []
    else
      var items := d["list"].items;
      if |items| < ForecastLimit then items else items[..ForecastLimit]
  }

  /** The reply of `/temp`. */
  function TempReply(fetch: FetchOutcome, city: string, rend: Renderer): (r: Reply)
    requires Formattable(Temp, fetch)
    ensures FetchChecked(fetch).Err? ==> r == FailureReply(WeatherFailurePrefix, FetchChecked(fetch).error, rend)
    ensures FetchChecked(fetch).Ok? ==> r == Reply(FormatCurrentWeather(FetchChecked(fetch).value, city, rend), false)
  {
    match FetchChecked(fetch)
    case Err(e) => FailureReply(WeatherFailurePrefix, e, rend)
    case Ok(d) => Reply(FormatCurrentWeather(d, city, rend), false)
  }

  /** The reply of `/rain`. */
  function RainReply(fetch: FetchOutcome, city: string, rend: Renderer): (r: Reply)
    requires Formattable(Rain, fetch)
    ensures FetchChecked(fetch).Err? ==> r == FailureReply(RainFailurePrefix, FetchChecked(fetch).error, rend)
    ensures FetchChecked(fetch).Ok? ==> r == Reply(FormatRain(FetchChecked(fetch).value, city, rend), false)
  {
    match FetchChecked(fetch)
    case Err(e) => FailureReply(RainFailurePrefix, e, rend)
    case Ok(d) => Reply(FormatRain(d, city, rend), false)
  }

  /** The reply of `/forecast`: at most the first three entries, and a
      private "no data" notice when there are none. */
  function ForecastReply(fetch: FetchOutcome, city: string, rend: Renderer): (r: Reply)
    requires Formattable(Forecast, fetch)
    ensures FetchChecked(fetch).Err? ==> r == FailureReply(ForecastFailurePrefix, FetchChecked(fetch).error, rend)
    ensures FetchChecked(fetch).Ok? && ForecastEntries(FetchChecked(fetch).value) == [] ==> r == Reply(NoForecastText, true)
    ensures FetchChecked(fetch).Ok? && ForecastEntries(FetchChecked(fetch).value) != [] ==>
              r == Reply(FormatForecast(ForecastEntries(FetchChecked(fetch).value), city, rend), false)
  {
    match FetchChecked(fetch)
    case Err(e) => FailureReply(ForecastFailurePrefix, e, rend)
    case Ok(d) =>
      var entries := ForecastEntries(d);
      if entries == [] then Reply(NoForecastText, true)
      else Reply(FormatForecast(entries, city, rend), false)
  }

  /** The reply each command computes: its own error notice on failure, and
      a public message on success except for the forecast's "no data" notice. */
  function CommandReply(cmd: Command, fetch: FetchOutcome, city: string, rend: Renderer): (r: Reply)
    requires Formattable(cmd, fetch)
    ensures FetchChecked(fetch).Err? ==> r == Reply(FailurePrefix(cmd) + Show(FetchChecked(fetch).error, rend), true)
    ensures FetchChecked(fetch).Ok? && cmd != Forecast ==> !r.ephemeral
  {
    match cmd
    case Temp => TempReply(fetch, city, rend)
    case Rain => RainReply(fetch, city, rend)
    case Forecast => ForecastReply(fetch, city, rend)
  }

  /** One invocation of a command on an interaction. */
  function Invoke(it: Interaction, cmd: Command, fetch: FetchOutcome, cfg: Settings.Config, rend: Renderer): (r: Interaction)
    requires Formattable(cmd, fetch)
    ensures |r.sent| == |it.sent| + 1
    ensures r.sent[..|it.sent|] == it.sent
    ensures r.sent[|it.sent|].route == FollowUp <==> it.responded
    ensures r.sent[|it.sent|].reply == CommandReply(cmd, fetch, CityName(cfg, rend), rend)
  {
    Respond(it, CommandReply(cmd, fetch, CityName(cfg, rend), rend))
  }

  /** Every error notice is the command's prefix followed by `str(error)`. */
  lemma FailureNotice(cmd: Command, fetch: FetchOutcome, city: string, rend: Renderer)
    requires Formattable(cmd, fetch)
    requires FetchChecked(fetch).Err?
    ensures CommandReply(cmd, fetch, city, rend) == Reply(FailurePrefix(cmd) + Show(FetchChecked(fetch).error, rend), true)
  {
  }

  /** The provider's own `message` reaches the user: a payload the status
      check rejects is answered with the command's prefix and that message. */
  lemma ProviderMessageShown(cmd: Command, p: Object, city: string, rend: Renderer)
    requires EnsureSuccess(p).Rejected? && "message" in p
    ensures CommandReply(cmd, Fetched(p), city, rend) == Reply(FailurePrefix(cmd) + Show(p["message"], rend), true)
  {
  }

  /** An unreachable provider is answered with the fixed fetch-failure text. */
  lemma UnreachableShown(cmd: Command, city: string, rend: Renderer)
    ensures CommandReply(cmd, Unreachable, city, rend) == Reply(FailurePrefix(cmd) + FetchFailure, true)
  {
  }

  /** OpenWeather's answer for an unknown city reaches `/temp` as the notice
      "⚠️ Không thể lấy dữ liệu thời tiết: city not found". */
  lemma CityNotFound(city: string, rend: Renderer)
    ensures TempReply(Fetched(map["cod" := Int(404), "message" := Str("city not found")]), city, rend)
            == Reply(WeatherFailurePrefix + "city not found", true)
  {
  }

  /** An empty-string `list` is answered like an empty one, with the private
      "no data" notice. */
  lemma EmptyTextListIsNoData(p: Object, city: string, rend: Renderer)
    requires EnsureSuccess(p).Accepted? && "list" in p && p["list"] == Str("")
    ensures ForecastReply(Fetched(p), city, rend) == Reply(NoForecastText, true)
  {
  }

  /** A reply is marked as a failure exactly when the fetch or the status
      check failed; the formatted messages open with a bold header and the
      "no data" notice with plain text. */
  lemma FailuresAreMarked(cmd: Command, fetch: FetchOutcome, city: string, rend: Renderer)
    requires Formattable(cmd, fetch)
    ensures StartsWith(CommandReply(cmd, fetch, city, rend).text, WarningMark) <==> FetchChecked(fetch).Err?
  {
    if FetchChecked(fetch).Err? {
      FailureIsMarked(cmd, fetch, city, rend);
    } else {
      SuccessIsUnmarked(cmd, fetch, city, rend);
    }
  }

  lemma FailureIsMarked(cmd: Command, fetch: FetchOutcome, city: string, rend: Renderer)
    requires Formattable(cmd, fetch)
    requires FetchChecked(fetch).Err?
    ensures StartsWith(CommandReply(cmd, fetch, city, rend).text, WarningMark)
  {
    var text := CommandReply(cmd, fetch, city, rend).text;
    match cmd
    case Temp => MarkedPrefix(text, WeatherFailurePrefix);
    case Rain => MarkedPrefix(text, RainFailurePrefix);
    case Forecast => MarkedPrefix(text, ForecastFailurePrefix);
  }

  lemma SuccessIsUnmarked(cmd: Command, fetch: FetchOutcome, city: string, rend: Renderer)
    requires Formattable(cmd, fetch)
    requires FetchChecked(fetch).Ok?
    ensures !StartsWith(CommandReply(cmd, fetch, city, rend).text, WarningMark)
  {
    match cmd
    case Temp => TempIsUnmarked(fetch, city, rend);
    case Rain => RainIsUnmarked(fetch, city, rend);
    case Forecast => ForecastIsUnmarked(fetch, city, rend);
  }

  lemma TempIsUnmarked(fetch: FetchOutcome, city: string, rend: Renderer)
    requires Formattable(Temp, fetch)
    requires FetchChecked(fetch).Ok?
    ensures !StartsWith(TempReply(fetch, city, rend).text, WarningMark)
  {
    var header := Text(CurrentHeader(city), rend);
    assert header[0] == '*';
    BoldIsNotMarked(TempReply(fetch, city, rend).text, header);
  }

  lemma RainIsUnmarked(fetch: FetchOutcome, city: string, rend: Renderer)
    requires Formattable(Rain, fetch)
    requires FetchChecked(fetch).Ok?
    ensures !StartsWith(RainReply(fetch, city, rend).text, WarningMark)
  {
    var header := Text(RainHeader(city), rend);
    assert header[0] == '*';
    BoldIsNotMarked(RainReply(fetch, city, rend).text, header);
  }

  lemma ForecastIsUnmarked(fetch: FetchOutcome, city: string, rend: Renderer)
    requires Formattable(Forecast, fetch)
    requires FetchChecked(fetch).Ok?
    ensures !StartsWith(ForecastReply(fetch, city, rend).text, WarningMark)
  {
    if ForecastEntries(FetchChecked(fetch).value) == [] {
      NoForecastIsUnmarked(fetch, city, rend);
    } else {
      ForecastMessageIsUnmarked(fetch, city, rend);
    }
  }

  lemma NoForecastIsUnmarked(fetch: FetchOutcome, city: string, rend: Renderer)
    requires Formattable(Forecast, fetch)
    requires FetchChecked(fetch).Ok? && ForecastEntries(FetchChecked(fetch).value) == []
    ensures !StartsWith(ForecastReply(fetch, city, rend).text, WarningMark)
  {
    assert ForecastReply(fetch, city, rend).text == NoForecastText;
    assert NoForecastText[0] != WarningMark[0];
  }

  lemma ForecastMessageIsUnmarked(fetch: FetchOutcome, city: string, rend: Renderer)
    requires Formattable(Forecast, fetch)
    requires FetchChecked(fetch).Ok? && ForecastEntries(FetchChecked(fetch).value) != []
    ensures !StartsWith(ForecastReply(fetch, city, rend).text, WarningMark)
  {
    var header := Text(ForecastHeader(city), rend);
    assert header[0] == '*';
    BoldIsNotMarked(ForecastReply(fetch, city, rend).text, header);
  }

  /** Text that starts with a failure prefix starts with the warning sign. */
  lemma MarkedPrefix(text: string, prefix: string)
    requires StartsWith(text, prefix)
    requires |prefix| >= |WarningMark| && prefix[..|WarningMark|] == WarningMark
    ensures StartsWith(text, WarningMark)
  {
    assert text[..|WarningMark|] == prefix[..|WarningMark|];
  }

  lemma BoldIsNotMarked(text: string, header: string)
    requires StartsWith(text, header)
    requires |header| > 0 && header[0] == '*'
    ensures !StartsWith(text, WarningMark)
  {
    assert text[0] == header[0];
  }

  /** A reply is private exactly when it is a failure notice or the
      "no data" notice. */
  lemma PrivateReplies(cmd: Command, fetch: FetchOutcome, city: string, rend: Renderer)
    requires Formattable(cmd, fetch)
    ensures CommandReply(cmd, fetch, city, rend).ephemeral <==>
              FetchChecked(fetch).Err? || (cmd == Forecast && ForecastEntries(FetchChecked(fetch).value) == [])
  {
  }

  // ---------------------------------------------------------------------------
  // The periodic alert
  // ---------------------------------------------------------------------------

  datatype Channel = Channel(id: int, name: string)

  /** `channels[i]` is the first channel called `name`. */
  predicate FirstAt(channels: seq<Channel>, name: string, i: int) {
    && 0 <= i < |channels|
    && channels[i].name == name
    && forall j :: 0 <= j < i ==> channels[j].name != name
  }

  /** `discord.utils.get(channels, name=name)`: the first channel with that name. */
  function FirstNamed(channels: seq<Channel>, name: string): (r: Option<Channel>)
    ensures r.None? <==> forall i :: 0 <= i < |channels| ==> channels[i].name != name
    ensures r.Some? ==> exists i :: FirstAt(channels, name, i) && channels[i] == r.value
    decreases |channels|
  {
    if |channels| == 0 then None
    else if channels[0].name == name then
      assert FirstAt(channels, name, 0);
      Some(channels[0])
    else
      var rest := FirstNamed(channels[1..], name);
      if rest.Some? then
        var k :| FirstAt(channels[1..], name, k) && channels[1..][k] == rest.value;
        assert FirstAt(channels, name, k + 1);
        rest
      else
        rest
  }

  /** A message posted to a channel. */
  datatype Post = Post(channel: Channel, text: string)

  /** One tick of the alert loop: whether the forecast was fetched, and what
      was posted. */
  datatype Tick = Tick(fetched: bool, post: Option<Post>)

  /** The first forecast entry, when the list is truthy, is one the alert
      formatter can read. */
  predicate AlertReadable(fetch: FetchOutcome) {
    fetch.Fetched? && EnsureSuccess(fetch.payload).Accepted? ==>
      var d := fetch.payload;
      "list" !in d || !Truthy(d["list"]) ||
      (d["list"].Arr? && d["list"].items[0].Obj? && AlertShaped(d["list"].items[0].fields))
  }

  /** One run of `weather_alert`: find the alert channel, and only then fetch
      the forecast; post the alert for the first entry unless the fetch or
      the status check failed or the list is empty. `fetch` is what the
      fetch would return. */
  function AlertTick(channels: seq<Channel>, fetch: FetchOutcome, city: string, rend: Renderer): (r: Tick)
    requires AlertReadable(fetch)
    ensures r.fetched <==> exists i :: 0 <= i < |channels| && channels[i].name == AlertChannelName
    ensures r.post.Some? <==>
              && r.fetched
              && FetchChecked(fetch).Ok?
              && "list" in FetchChecked(fetch).value
              && Truthy(FetchChecked(fetch).value["list"])
    ensures r.post.Some? ==> Some(r.post.value.channel) == FirstNamed(channels, AlertChannelName)
    ensures r.post.Some? ==>
              var first := FetchChecked(fetch).value["list"].items[0].fields;
              r.post.value.text == FormatAlert(first, city, rend)
  {
    match FirstNamed(channels, AlertChannelName)
    case None => Tick(false, None)
    case Some(channel) =>
      match FetchChecked(fetch)
      case Err(_) => Tick(true, None)
      case Ok(d) =>
        match Get(d, "list")
        case None => Tick(true, None)
        case Some(entries) =>
          if !Truthy(entries) then Tick(true, None)
          else Tick(true, Some(Post(channel, FormatAlert(entries.items[0].fields, city, rend))))
  }

  /** Every alert the loop posts is the alert message, which closes with the
      "prepare" line. */
  lemma PostedAlertsClose(channels: seq<Channel>, fetch: FetchOutcome, city: string, rend: Renderer)
    requires AlertReadable(fetch)
    requires AlertTick(channels, fetch, city, rend).post.Some?
    ensures EndsWith(AlertTick(channels, fetch, city, rend).post.value.text, PrepareText)
  {
  }
}

=== FILE: formatters.dfy ===
/** The four message formatters. Each looks up nested optional fields of a
    decoded payload and places its lines between a fixed header and a fixed
    trailer. The current-weather and alert messages, and a forecast entry's
    inline extras, show only the values that are numbers, in a fixed order;
    the rain message picks one rainfall line by falling back from the last
    hour to the last three hours; the forecast has one line per entry. */
module Formatters {
  import opened Wrappers
  import opened Json
  import opened Messages
  import opened Layout

  /** Description used when the payload's weather entry has none. */
  const UnknownDescription: string := "Không rõ"

  // ---------------------------------------------------------------------------
  // Payload shapes the formatters can read without raising
  // ---------------------------------------------------------------------------

  /** `payload.get("weather", [{}])[0].get("description", …).capitalize()`
      does not raise: `weather` is absent, or a non-empty list whose first
      element is an object whose `description`, if any, is a string. */
  predicate WeatherShaped(d: Object) {
    "weather" !in d ||
    (&& d["weather"].Arr?
     && |d["weather"].items| > 0
     && d["weather"].items[0].Obj?
     && var w := d["weather"].items[0].fields;
        "description" !in w || w["description"].Str?)
  }

  predicate CurrentShaped(d: Object) {
    WeatherShaped(d) && ObjectOrAbsent(d, "main") && ObjectOrAbsent(d, "wind") && ObjectOrAbsent(d, "clouds")
  }

  predicate RainShaped(d: Object) {
    WeatherShaped(d) && ObjectOrAbsent(d, "rain")
  }

  /** What the alert formatter reads of a forecast entry. */
  predicate AlertShaped(d: Object) {
    WeatherShaped(d) && ObjectOrAbsent(d, "main") && ObjectOrAbsent(d, "wind") && ObjectOrAbsent(d, "rain")
  }

  /** A forecast entry the forecast formatter can read: an object whose `dt`,
      when truthy, is a number `datetime.fromtimestamp` accepts. */
  predicate EntryShaped(e: Json) {
    && e.Obj?
    && AlertShaped(e.fields)
    && ("dt" !in e.fields || !Truthy(e.fields["dt"]) || AsNumber(e.fields["dt"]).Some?)
  }

  /** The description of the payload's first weather entry, before capitalization. */
  function Description(d: Object): (r: string)
    requires WeatherShaped(d)
    ensures "weather" !in d ==> r == UnknownDescription
    ensures "weather" in d && "description" in d["weather"].items[0].fields ==>
              Str(r) == d["weather"].items[0].fields["description"]
    ensures "weather" in d && "description" !in d["weather"].items[0].fields ==> r == UnknownDescription
  {
    var w := if "weather" in d then d["weather"].items[0].fields else map[];
    if "description" in w then w["description"].s else UnknownDescription
  }

  // ---------------------------------------------------------------------------
  // Where each measurement is read, and its place in the fixed order
  // ---------------------------------------------------------------------------

  function CurrentSource(f: CurrentField): Path {
    match f
    case Temperature => Nested("main", "temp")
    case FeelsLike => Nested("main", "feels_like")
    case Humidity => Nested("main", "humidity")
    case WindSpeed => Nested("wind", "speed")
    case Cloudiness => Nested("clouds", "all")
  }

  const CurrentOrder: seq<CurrentField> := [Temperature, FeelsLike, Humidity, WindSpeed, Cloudiness]

  function CurrentRank(f: CurrentField): nat {
    match f
    case Temperature => 0
    case FeelsLike => 1
    case Humidity => 2
    case WindSpeed => 3
    case Cloudiness => 4
  }

  lemma CurrentOrderRanked()
    ensures forall i, j :: 0 <= i < j < |CurrentOrder| ==> CurrentRank(CurrentOrder[i]) < CurrentRank(CurrentOrder[j])
  {
  }

  /** Every field has a place in the order, at its rank. */
  lemma EveryCurrentField(f: CurrentField)
    ensures CurrentRank(f) < |CurrentOrder| && CurrentOrder[CurrentRank(f)] == f
  {
  }

  function AlertSource(f: AlertField): Path {
    match f
    case AlertTemperature => Nested("main", "temp")
    case AlertFeelsLike => Nested("main", "feels_like")
    case ExpectedRain => LastThreeHours
    case RainChance => Top("pop")
    case AverageWind => Nested("wind", "speed")
  }

  const AlertOrder: seq<AlertField> := [AlertTemperature, AlertFeelsLike, ExpectedRain, RainChance, AverageWind]

  function AlertRank(f: AlertField): nat {
    match f
    case AlertTemperature => 0
    case AlertFeelsLike => 1
    case ExpectedRain => 2
    case RainChance => 3
    case AverageWind => 4
  }

  lemma AlertOrderRanked()
    ensures forall i, j :: 0 <= i < j < |AlertOrder| ==> AlertRank(AlertOrder[i]) < AlertRank(AlertOrder[j])
  {
  }

  /** Every field has a place in the order, at its rank. */
  lemma EveryAlertField(f: AlertField)
    ensures AlertRank(f) < |AlertOrder| && AlertOrder[AlertRank(f)] == f
  {
  }

  function ExtraSource(f: ExtraField): Path {
    match f
    case ExtraTemperature => Nested("main", "temp")
    case ExtraFeelsLike => Nested("main", "feels_like")
    case ExtraRain => LastThreeHours
    case ExtraRainChance => Top("pop")
    case ExtraWind => Nested("wind", "speed")
  }

  const ExtraOrder: seq<ExtraField> := [ExtraTemperature, ExtraFeelsLike, ExtraRain, ExtraRainChance, ExtraWind]

  function ExtraRank(f: ExtraField): nat {
    match f
    case ExtraTemperature => 0
    case ExtraFeelsLike => 1
    case ExtraRain => 2
    case ExtraRainChance => 3
    case ExtraWind => 4
  }

  lemma ExtraOrderRanked()
    ensures forall i, j :: 0 <= i < j < |ExtraOrder| ==> ExtraRank(ExtraOrder[i]) < ExtraRank(ExtraOrder[j])
  {
  }

  /** Every field has a place in the order, at its rank. */
  lemma EveryExtraField(f: ExtraField)
    ensures ExtraRank(f) < |ExtraOrder| && ExtraOrder[ExtraRank(f)] == f
  {
  }

  /** Two leading lines, a middle, and one trailing line. */
  lemma Framed<T>(first: T, second: T, middle: seq<T>, last: T)
    ensures var r := [first, second] + middle + [last];
            && |r| == |middle| + 3 && r[0] == first && r[1] == second && r[|r| - 1] == last
            && forall i :: 2 <= i < |r| - 1 ==> r[i] == middle[i - 2]
  {
  }

  /** An element that is neither in the head nor in the tail of a sequence is
      in the whole exactly when it is in the middle. */
  lemma InMiddle<T>(head: seq<T>, middle: seq<T>, tail: seq<T>, x: T)
    requires x !in head && x !in tail
    ensures x in head + middle + tail <==> x in middle
  {
    if x in head + middle + tail {
      var i :| 0 <= i < |head + middle + tail| && (head + middle + tail)[i] == x;
      assert middle[i - |head|] == x;
    }
  }

  // ---------------------------------------------------------------------------
  // format_current_weather_message
  // ---------------------------------------------------------------------------

  /** The numeric current-weather measurements of a payload. */
  function CurrentValues(d: Object): (m: map<CurrentField, Number>)
    requires CurrentShaped(d)
  {
    assert forall f :: Readable(d, CurrentSource(f));
    Values(d, CurrentOrder, CurrentSource)
  }

  function CurrentMeasures(rs: seq<Reading<CurrentField>>): (ls: seq<Line>)
    ensures |ls| == |rs|
    ensures forall i :: 0 <= i < |rs| ==> ls[i] == CurrentMeasure(rs[i])
    ensures forall x :: CurrentMeasure(x) in ls <==> x in rs
    decreases |rs|
  {
    if |rs| == 0 then [] else [CurrentMeasure(rs[0])] + CurrentMeasures(rs[1..])
  }

  /** The lines of the current-weather message: header, description, one
      line per numeric measurement, provenance. */
  function CurrentLines(d: Object, city: string): (r: seq<Line>)
    requires CurrentShaped(d)
    ensures |r| == 3 + Count(CurrentOrder, CurrentValues(d))
    ensures r[0] == CurrentHeader(city)
    ensures r[1] == CurrentStatus(Description(d))
    ensures r[|r| - 1] == Provenance
    ensures forall i :: 2 <= i < |r| - 1 ==> r[i].CurrentMeasure?
  {
    var measures := CurrentMeasures(Pick(CurrentOrder, CurrentValues(d)));
    PickCount(CurrentOrder, CurrentValues(d));
    Framed(CurrentHeader(city), CurrentStatus(Description(d)), measures, Provenance);
    [CurrentHeader(city), CurrentStatus(Description(d))] + measures + [Provenance]
  }

  /** Each measurement contributes exactly one line, showing its number,
      exactly when the payload holds a number for it. */
  lemma CurrentLinesShowNumbers(d: Object, city: string)
    requires CurrentShaped(d)
    ensures forall x :: CurrentMeasure(x) in CurrentLines(d, city) <==> NumberAt(d, CurrentSource(x.field)) == Some(x.value)
  {
    forall x {
      CurrentLinesShowOne(d, city, x);
    }
  }

  lemma CurrentLinesShowOne(d: Object, city: string, x: Reading<CurrentField>)
    requires CurrentShaped(d)
    ensures CurrentMeasure(x) in CurrentLines(d, city) <==> NumberAt(d, CurrentSource(x.field)) == Some(x.value)
  {
    var values := CurrentValues(d);
    var picked := Pick(CurrentOrder, values);
    var measures := CurrentMeasures(picked);
    EveryCurrentField(x.field);
    PickHas(CurrentOrder, values, x.field, x.value);
    InMiddle([CurrentHeader(city), CurrentStatus(Description(d))], measures, [Provenance], CurrentMeasure(x));
  }

  /** The measurement lines follow the fixed order temperature, feels-like,
      humidity, wind, clouds. */
  lemma CurrentLinesOrdered(d: Object, city: string)
    requires CurrentShaped(d)
    ensures var r := CurrentLines(d, city);
            forall i, j :: 2 <= i < j < |r| - 1 ==> CurrentRank(r[i].current.field) < CurrentRank(r[j].current.field)
  {
    var values := CurrentValues(d);
    var picked := Pick(CurrentOrder, values);
    var measures := CurrentMeasures(picked);
    var r := CurrentLines(d, city);
    CurrentOrderRanked();
    PickOrdered(CurrentOrder, values, CurrentRank);
    Framed(CurrentHeader(city), CurrentStatus(Description(d)), measures, Provenance);
    forall i, j | 2 <= i < j < |r| - 1
      ensures CurrentRank(r[i].current.field) < CurrentRank(r[j].current.field)
    {
      assert r[i].current == picked[i - 2];
      assert r[j].current == picked[j - 2];
    }
  }

  /** `format_current_weather_message(payload)`. */
  function FormatCurrentWeather(d: Object, city: string, rend: Renderer): (m: string)
    requires CurrentShaped(d)
    ensures StartsWith(m, Text(CurrentHeader(city), rend))
    ensures EndsWith(m, ProvenanceText)
  {
    CurrentMessageEnds(d, city, rend);
    Message(CurrentLines(d, city), rend)
  }

  lemma CurrentMessageEnds(d: Object, city: string, rend: Renderer)
    requires CurrentShaped(d)
    ensures StartsWith(Message(CurrentLines(d, city), rend), Text(CurrentHeader(city), rend))
    ensures EndsWith(Message(CurrentLines(d, city), rend), ProvenanceText)
  {
  }

  // ---------------------------------------------------------------------------
  // format_rain_message
  // ---------------------------------------------------------------------------

  predicate IsRainfall(l: Line) {
    l.RainLastHour? || l.RainLastThreeHours? || l.NoRainRecorded?
  }

  const LastHour: Path := Nested("rain", "1h")
  const LastThreeHours: Path := Nested("rain", "3h")

  /** The lines of the rain message: header, exactly one rainfall line,
      description, provenance. The 1-hour figure wins when it is a number,
      then the 3-hour figure, else "no rain recorded". */
  function RainLines(d: Object, city: string): (r: seq<Line>)
    requires RainShaped(d)
    ensures |r| == 4
    ensures r[0] == RainHeader(city)
    ensures r[2] == RainStatus(Description(d))
    ensures r[3] == Provenance
    ensures forall i :: 0 <= i < |r| ==> (IsRainfall(r[i]) <==> i == 1)
    ensures forall n :: r[1] == RainLastHour(n) <==> NumberAt(d, LastHour) == Some(n)
    ensures forall n :: r[1] == RainLastThreeHours(n) <==>
              NumberAt(d, LastHour).None? && NumberAt(d, LastThreeHours) == Some(n)
    ensures r[1] == NoRainRecorded <==> NumberAt(d, LastHour).None? && NumberAt(d, LastThreeHours).None?
  {
    var lastHour := NumberAt(d, LastHour);
    var lastThree := NumberAt(d, LastThreeHours);
    var rainfall :=
      if lastHour.Some? then RainLastHour(lastHour.value)
      else if lastThree.Some? then RainLastThreeHours(lastThree.value)
      else NoRainRecorded;
    [RainHeader(city), rainfall, RainStatus(Description(d)), Provenance]
  }

  /** `format_rain_message(payload)`. */
  function FormatRain(d: Object, city: string, rend: Renderer): (m: string)
    requires RainShaped(d)
    ensures StartsWith(m, Text(RainHeader(city), rend))
    ensures EndsWith(m, ProvenanceText)
  {
    RainMessageEnds(d, city, rend);
    Message(RainLines(d, city), rend)
  }

  lemma RainMessageEnds(d: Object, city: string, rend: Renderer)
    requires RainShaped(d)
    ensures StartsWith(Message(RainLines(d, city), rend), Text(RainHeader(city), rend))
    ensures EndsWith(Message(RainLines(d, city), rend), ProvenanceText)
  {
  }

  // ---------------------------------------------------------------------------
  // format_forecast_message
  // ---------------------------------------------------------------------------

  /** The extras a forecast entry shows: its numeric measurements, except a
      rain figure that is not positive. */
  function ExtraValues(d: Object): (m: map<ExtraField, Number>)
    requires AlertShaped(d)
    ensures forall f :: f in m <==> NumberAt(d, ExtraSource(f)).Some? && (f == ExtraRain ==> NumberAt(d, ExtraSource(f)).value.Real() > 0.0)
    ensures forall f :: f in m ==> Some(m[f]) == NumberAt(d, ExtraSource(f))
  {
    assert forall f :: Readable(d, ExtraSource(f));
    var found := Values(d, ExtraOrder, ExtraSource);
    forall f { EveryExtraField(f); }
    map f | f in found && (f == ExtraRain ==> found[f].Real() > 0.0) :: found[f]
  }

  /** The inline extras of one forecast entry, in the fixed order. */
  function Extras(d: Object): (r: seq<Reading<ExtraField>>)
    requires AlertShaped(d)
    ensures |r| <= |ExtraOrder|
  {
    PickCount(ExtraOrder, ExtraValues(d));
    CountAtMost(ExtraOrder, ExtraValues(d));
    Pick(ExtraOrder, ExtraValues(d))
  }

  /** An extra appears, showing its number, exactly when the entry holds a
      number for it, and the rain extra only when that number is positive. */
  lemma ExtrasShowNumbers(d: Object)
    requires AlertShaped(d)
    ensures forall x :: x in Extras(d) <==>
              NumberAt(d, ExtraSource(x.field)) == Some(x.value) && (x.field == ExtraRain ==> x.value.Real() > 0.0)
  {
    forall x {
      ExtrasShowOne(d, x);
    }
  }

  lemma ExtrasShowOne(d: Object, x: Reading<ExtraField>)
    requires AlertShaped(d)
    ensures x in Extras(d) <==>
              NumberAt(d, ExtraSource(x.field)) == Some(x.value) && (x.field == ExtraRain ==> x.value.Real() > 0.0)
  {
    EveryExtraField(x.field);
    PickHas(ExtraOrder, ExtraValues(d), x.field, x.value);
  }

  /** The extras follow the fixed order temperature, feels-like, rain, chance
      of rain, wind. */
  lemma ExtrasOrdered(d: Object)
    requires AlertShaped(d)
    ensures forall i, j :: 0 <= i < j < |Extras(d)| ==> ExtraRank(Extras(d)[i].field) < ExtraRank(Extras(d)[j].field)
  {
    ExtraOrderRanked();
    PickOrdered(ExtraOrder, ExtraValues(d), ExtraRank);
  }

  /** The line of one forecast entry: its time, or "--:--" when `dt` is
      absent or falsy, its description and its extras. */
  function SlotLine(e: Json): (l: Line)
    requires EntryShaped(e)
    ensures l.Slot?
    ensures l.time == NoTime <==> "dt" !in e.fields || !Truthy(e.fields["dt"])
    ensures l.time.Stamped? ==> l.time.stamp == NumberAt(e.fields, Top("dt")).value.Real()
    ensures l.description == Description(e.fields)
    ensures l.extras == Extras(e.fields)
  {
    var d := e.fields;
    var time := if "dt" in d && Truthy(d["dt"]) then Stamped(AsNumber(d["dt"]).value.Real()) else NoTime;
    Slot(time, Description(d), Extras(d))
  }

  /** One line per entry, in input order. */
  function SlotLines(entries: seq<Json>): (r: seq<Line>)
    requires forall i :: 0 <= i < |entries| ==> EntryShaped(entries[i])
    ensures |r| == |entries|
    ensures forall i :: 0 <= i < |entries| ==> r[i] == SlotLine(entries[i])
    decreases |entries|
  {
    if |entries| == 0 then [] else [SlotLine(entries[0])] + SlotLines(entries[1..])
  }

  /** The lines of the forecast message: header, one line per entry in input
      order, provenance. */
  function ForecastLines(entries: seq<Json>, city: string): (r: seq<Line>)
    requires forall i :: 0 <= i < |entries| ==> EntryShaped(entries[i])
    ensures |r| == |entries| + 2
    ensures r[0] == ForecastHeader(city)
    ensures r[|r| - 1] == Provenance
    ensures forall i :: 0 <= i < |entries| ==> r[i + 1] == SlotLine(entries[i])
  {
    [ForecastHeader(city)] + SlotLines(entries) + [Provenance]
  }

  /** `format_forecast_message(entries)`. */
  function FormatForecast(entries: seq<Json>, city: string, rend: Renderer): (m: string)
    requires forall i :: 0 <= i < |entries| ==> EntryShaped(entries[i])
    ensures StartsWith(m, Text(ForecastHeader(city), rend))
    ensures EndsWith(m, ProvenanceText)
  {
    ForecastMessageEnds(entries, city, rend);
    Message(ForecastLines(entries, city), rend)
  }

  lemma ForecastMessageEnds(entries: seq<Json>, city: string, rend: Renderer)
    requires forall i :: 0 <= i < |entries| ==> EntryShaped(entries[i])
    ensures StartsWith(Message(ForecastLines(entries, city), rend), Text(ForecastHeader(city), rend))
    ensures EndsWith(Message(ForecastLines(entries, city), rend), ProvenanceText)
  {
  }

  // ---------------------------------------------------------------------------
  // format_alert_message
  // ---------------------------------------------------------------------------

  /** The numeric alert measurements of a forecast entry. */
  function AlertValues(d: Object): (m: map<AlertField, Number>)
    requires AlertShaped(d)
  {
    assert forall f :: Readable(d, AlertSource(f));
    Values(d, AlertOrder, AlertSource)
  }

  function AlertMeasures(rs: seq<Reading<AlertField>>): (ls: seq<Line>)
    ensures |ls| == |rs|
    ensures forall i :: 0 <= i < |rs| ==> ls[i] == AlertMeasure(rs[i])
    ensures forall x :: AlertMeasure(x) in ls <==> x in rs
    decreases |rs|
  {
    if |rs| == 0 then [] else [AlertMeasure(rs[0])] + AlertMeasures(rs[1..])
  }

  /** The lines of the alert message for one forecast entry: header, outlook,
      one line per numeric measurement, and the "prepare" line where the
      other messages have the provenance line. */
  function AlertLines(d: Object, city: string): (r: seq<Line>)
    requires AlertShaped(d)
    ensures |r| == 3 + Count(AlertOrder, AlertValues(d))
    ensures r[0] == AlertHeader(city)
    ensures r[1] == AlertOutlook(Description(d))
    ensures r[|r| - 1] == Prepare
    ensures forall i :: 2 <= i < |r| - 1 ==> r[i].AlertMeasure?
  {
    var measures := AlertMeasures(Pick(AlertOrder, AlertValues(d)));
    PickCount(AlertOrder, AlertValues(d));
    Framed(AlertHeader(city), AlertOutlook(Description(d)), measures, Prepare);
    [AlertHeader(city), AlertOutlook(Description(d))] + measures + [Prepare]
  }

  /** Each measurement contributes exactly one line, showing its number,
      exactly when the entry holds a number for it; a rain figure of zero
      is shown too. */
  lemma AlertLinesShowNumbers(d: Object, city: string)
    requires AlertShaped(d)
    ensures forall x :: AlertMeasure(x) in AlertLines(d, city) <==> NumberAt(d, AlertSource(x.field)) == Some(x.value)
  {
    forall x {
      AlertLinesShowOne(d, city, x);
    }
  }

  lemma AlertLinesShowOne(d: Object, city: string, x: Reading<AlertField>)
    requires AlertShaped(d)
    ensures AlertMeasure(x) in AlertLines(d, city) <==> NumberAt(d, AlertSource(x.field)) == Some(x.value)
  {
    var values := AlertValues(d);
    var picked := Pick(AlertOrder, values);
    var measures := AlertMeasures(picked);
    EveryAlertField(x.field);
    PickHas(AlertOrder, values, x.field, x.value);
    InMiddle([AlertHeader(city), AlertOutlook(Description(d))], measures, [Prepare], AlertMeasure(x));
  }

  /** The measurement lines follow the fixed order temperature, feels-like,
      rain, chance of rain, wind. */
  lemma AlertLinesOrdered(d: Object, city: string)
    requires AlertShaped(d)
    ensures var r := AlertLines(d, city);
            forall i, j :: 2 <= i < j < |r| - 1 ==> AlertRank(r[i].alert.field) < AlertRank(r[j].alert.field)
  {
    var values := AlertValues(d);
    var picked := Pick(AlertOrder, values);
    var measures := AlertMeasures(picked);
    var r := AlertLines(d, city);
    AlertOrderRanked();
    PickOrdered(AlertOrder, values, AlertRank);
    Framed(AlertHeader(city), AlertOutlook(Description(d)), measures, Prepare);
    forall i, j | 2 <= i < j < |r| - 1
      ensures AlertRank(r[i].alert.field) < AlertRank(r[j].alert.field)
    {
      assert r[i].alert == picked[i - 2];
      assert r[j].alert == picked[j - 2];
    }
  }

  /** The alert message never carries the provenance line. */
  lemma AlertLinesWithoutProvenance(d: Object, city: string)
    requires AlertShaped(d)
    ensures Provenance !in AlertLines(d, city)
  {
    var measures := AlertMeasures(Pick(AlertOrder, AlertValues(d)));
    assert forall i :: 0 <= i < |measures| ==> measures[i].AlertMeasure?;
    InMiddle([AlertHeader(city), AlertOutlook(Description(d))], measures, [Prepare], Provenance);
  }

  /** `format_alert_message(entry)`. */
  function FormatAlert(d: Object, city: string, rend: Renderer): (m: string)
    requires AlertShaped(d)
    ensures StartsWith(m, Text(AlertHeader(city), rend))
    ensures EndsWith(m, PrepareText)
  {
    AlertMessageEnds(d, city, rend);
    Message(AlertLines(d, city), rend)
  }

  lemma AlertMessageEnds(d: Object, city: string, rend: Renderer)
    requires AlertShaped(d)
    ensures StartsWith(Message(AlertLines(d, city), rend), Text(AlertHeader(city), rend))
    ensures EndsWith(Message(AlertLines(d, city), rend), PrepareText)
  {
  }

  // ---------------------------------------------------------------------------
  // The alert and the forecast read the same entry differently
  // ---------------------------------------------------------------------------

  /** The forecast extra that reads the same field as an alert measurement. */
  function Counterpart(f: AlertField): (x: ExtraField)
    ensures ExtraSource(x) == AlertSource(f)
    ensures ExtraRank(x) == AlertRank(f)
    ensures x == ExtraRain <==> f == ExpectedRain
  {
    match f
    case AlertTemperature => ExtraTemperature
    case AlertFeelsLike => ExtraFeelsLike
    case ExpectedRain => ExtraRain
    case RainChance => ExtraRainChance
    case AverageWind => ExtraWind
  }

  /** For one entry, the alert shows a measurement exactly when the forecast
      line shows it as an extra, with the same number, except that the alert
      also shows a rain figure that is zero or negative. */
  lemma AlertMatchesExtras(d: Object, city: string)
    requires AlertShaped(d)
    ensures forall x: Reading<AlertField> :: x.field != ExpectedRain ==>
              (AlertMeasure(x) in AlertLines(d, city) <==> Reading(Counterpart(x.field), x.value) in Extras(d))
    ensures forall n :: AlertMeasure(Reading(ExpectedRain, n)) in AlertLines(d, city) <==>
              Reading(ExtraRain, n) in Extras(d) || (NumberAt(d, LastThreeHours) == Some(n) && n.Real() <= 0.0)
  {
    forall x: Reading<AlertField> {
      AlertMatchesOne(d, city, x);
    }
  }

  lemma AlertMatchesOne(d: Object, city: string, x: Reading<AlertField>)
    requires AlertShaped(d)
    ensures x.field != ExpectedRain ==>
              (AlertMeasure(x) in AlertLines(d, city) <==> Reading(Counterpart(x.field), x.value) in Extras(d))
    ensures x.field == ExpectedRain ==>
              (AlertMeasure(x) in AlertLines(d, city) <==>
               Reading(ExtraRain, x.value) in Extras(d) || (NumberAt(d, LastThreeHours) == Some(x.value) && x.value.Real() <= 0.0))
  {
    var extra := Reading(Counterpart(x.field), x.value);
    AlertLinesShowOne(d, city, x);
    ExtrasShowOne(d, extra);
    assert ExtraSource(extra.field) == AlertSource(x.field);
    if x.field == ExpectedRain {
      assert AlertSource(x.field) == LastThreeHours;
    }
  }

  /** A rain figure of zero appears in the alert but not among the forecast extras. */
  lemma ZeroRainShownOnlyInAlert(d: Object, city: string, n: Number)
    requires AlertShaped(d)
    requires NumberAt(d, LastThreeHours) == Some(n) && n.Real() == 0.0
    ensures AlertMeasure(Reading(ExpectedRain, n)) in AlertLines(d, city)
    ensures forall m :: Reading(ExtraRain, m) !in Extras(d)
  {
    var x := Reading(ExpectedRain, n);
    assert AlertSource(x.field) == LastThreeHours;
    AlertLinesShowOne(d, city, x);
    NoRainExtra(d, n);
  }

  lemma NoRainExtra(d: Object, n: Number)
    requires AlertShaped(d)
    requires NumberAt(d, LastThreeHours) == Some(n) && n.Real() <= 0.0
    ensures forall m :: Reading(ExtraRain, m) !in Extras(d)
  {
    forall m: Number {
      ExtrasShowOne(d, Reading(ExtraRain, m));
    }
  }
}

=== FILE: json.dfy ===
/** Decoded JSON documents as the bot sees them after `response.json()` or
    `json.loads`, with the Python lookups and tests the bot applies to them. */
module Json {
  import opened Wrappers

  /** A decoded JSON value. Python's float is modelled as a real number; NaN and
      the infinities are not represented. */
  datatype Json =
    | Null
    | Bool(b: bool)
    | Int(i: int)
    | Float(f: real)
    | Str(s: string)
    | Arr(items: seq<Json>)
    | Obj(fields: map<string, Json>)

  type Object = map<string, Json>

  /** A value that passes `isinstance(v, (int, float))`. Python's bool is a
      subclass of int, so True and False are numbers too. */
  datatype Number = IntNumber(i: int) | FloatNumber(f: real) | BoolNumber(b: bool) {

    /** The number's value as a real (True is 1, False is 0). */
    function Real(): real {
      match this
      case IntNumber(i) => i as real
      case FloatNumber(f) => f
      case BoolNumber(b) => if b then 1.0 else 0.0
    }

    function ToJson(): Json {
      match this
      case IntNumber(i) => Int(i)
      case FloatNumber(f) => Float(f)
      case BoolNumber(b) => Bool(b)
    }
  }

  /** Python truthiness: None, False, zero, and empty strings, lists and dicts are false. */
  predicate Truthy(v: Json) {
    match v
    case Null => false
    case Bool(b) => b
    case Int(i) => i != 0
    case Float(f) => f != 0.0
    case Str(s) => s != ""
    case Arr(items) => items != []
    case Obj(fields) => fields != map[]
  }

  /** `isinstance(v, (int, float))`, returning the number. */
  function AsNumber(v: Json): (r: Option<Number>)
    ensures r.Some? <==> v.Bool? || v.Int? || v.Float?
    ensures r.Some? ==> r.value.ToJson() == v
    ensures r.Some? ==> (Truthy(v) <==> r.value.Real() != 0.0)
  {
    match v
    case Bool(b) => Some(BoolNumber(b))
    case Int(i) => Some(IntNumber(i))
    case Float(f) => Some(FloatNumber(f))
    case _ => None
  }

  /** `d.get(k)`. */
  function Get(d: Object, k: string): (r: Option<Json>)
    ensures r.Some? <==> k in d
    ensures r.Some? ==> r.value == d[k]
  {
    if k in d then Some(d[k]) else None
  }

  /** `d.get(k, {})` can be followed by `.get` without an AttributeError. */
  predicate ObjectOrAbsent(d: Object, k: string) {
    k !in d || d[k].Obj?
  }

  /** `d.get(k, {})` for a key that is absent or holds an object. */
  function Child(d: Object, k: string): (r: Object)
    requires ObjectOrAbsent(d, k)
    ensures k !in d ==> r == map[]
    ensures k in d ==> Obj(r) == d[k]
  {
    if k in d then d[k].fields else map[]
  }

  /** Where a formatter finds a field: `d.get(key)` at the top level, or
      `d.get(container, {}).get(key)` one level down. */
  datatype Path = Top(key: string) | Nested(container: string, key: string)

  predicate Readable(d: Object, p: Path) {
    p.Top? || ObjectOrAbsent(d, p.container)
  }

  /** The value found at `p`, or None when a key on the way is absent. */
  function At(d: Object, p: Path): (r: Option<Json>)
    requires Readable(d, p)
    ensures p.Top? ==> (r.Some? <==> p.key in d) && (r.Some? ==> r.value == d[p.key])
    ensures p.Nested? ==> (r.Some? <==> p.container in d && p.key in d[p.container].fields)
    ensures p.Nested? && r.Some? ==> r.value == d[p.container].fields[p.key]
  {
    match p
    case Top(k) => Get(d, k)
    case Nested(c, k) => Get(Child(d, c), k)
  }

  /** The number found at `p`; None when it is absent or not a number. */
  function NumberAt(d: Object, p: Path): (r: Option<Number>)
    requires Readable(d, p)
    ensures r.Some? <==> At(d, p).Some? && AsNumber(At(d, p).value).Some?
    ensures r.Some? ==> r.value.ToJson() == At(d, p).value
  {
    match At(d, p)
    case None => None
    case Some(v) => AsNumber(v)
  }
}

=== FILE: layout.dfy ===
/** Selecting, in a fixed order, the fields of a payload that hold numbers:
    the shared shape of the current-weather and alert messages and of a
    forecast entry's extras. */
module Layout {
  import opened Wrappers
  import opened Json

  /** A field together with the number found for it. */
  datatype Reading<F> = Reading(field: F, value: Number)

  /** The numbers found for `fields` in `d`; a field is a key exactly when the
      value at its path is a number. */
  function Values<F(==,!new)>(d: Object, fields: seq<F>, source: F -> Path): (m: map<F, Number>)
    requires forall f :: f in fields ==> Readable(d, source(f))
    ensures forall f :: f in m <==> f in fields && NumberAt(d, source(f)).Some?
    ensures forall f :: f in m ==> Some(m[f]) == NumberAt(d, source(f))
  {
    map f | f in fields && NumberAt(d, source(f)).Some? :: NumberAt(d, source(f)).value
  }

  /** The readings of `order`'s fields that appear in `values`, in `order`'s order. */
  function Pick<F(==)>(order: seq<F>, values: map<F, Number>): seq<Reading<F>>
    decreases |order|
  {
    if |order| == 0 then []
    else
      var f := order[0];
      (if f in values then [Reading(f, values[f])] else []) + Pick(order[1..], values)
  }

  /** How many of `order`'s fields appear in `values`. */
  function Count<F(==)>(order: seq<F>, values: map<F, Number>): nat
    decreases |order|
  {
    if |order| == 0 then 0
    else (if order[0] in values then 1 else 0) + Count(order[1..], values)
  }

  /** No more readings than `order` has fields. */
  lemma {:induction false} CountAtMost<F>(order: seq<F>, values: map<F, Number>)
    ensures Count(order, values) <= |order|
    decreases |order|
  {
    if |order| > 0 {
      CountAtMost(order[1..], values);
    }
  }

  /** One reading per field of `order` that has a value. */
  lemma {:induction false} PickCount<F>(order: seq<F>, values: map<F, Number>)
    ensures |Pick(order, values)| == Count(order, values)
    decreases |order|
  {
    if |order| > 0 {
      PickCount(order[1..], values);
    }
  }

  /** The readings picked are those of `order`'s fields that have a value, and no others. */
  lemma {:induction false} PickContents<F>(order: seq<F>, values: map<F, Number>)
    ensures forall f, n :: Reading(f, n) in Pick(order, values) <==> f in order && f in values && values[f] == n
    decreases |order|
  {
    if |order| > 0 {
      PickContents(order[1..], values);
      assert order == [order[0]] + order[1..];
    }
  }

  /** Picking keeps the order: when ranks increase along `order`, they
      increase along the picked readings. */
  lemma {:induction false} PickOrdered<F>(order: seq<F>, values: map<F, Number>, rank: F -> nat)
    requires forall i, j :: 0 <= i < j < |order| ==> rank(order[i]) < rank(order[j])
    ensures forall i, j :: 0 <= i < j < |Pick(order, values)| ==>
              rank(Pick(order, values)[i].field) < rank(Pick(order, values)[j].field)
    decreases |order|
  {
    if |order| > 0 {
      var rest := Pick(order[1..], values);
      PickOrdered(order[1..], values, rank);
      forall i | 0 <= i < |rest|
        ensures rank(order[0]) < rank(rest[i].field)
      {
        PickedLater(order, values, rest[i].field, rest[i].value);
      }
    }
  }

  /** When `order` lists each field once, no field is picked twice. */
  lemma {:induction false} PickDistinct<F>(order: seq<F>, values: map<F, Number>)
    requires forall i, j :: 0 <= i < j < |order| ==> order[i] != order[j]
    ensures forall i, j :: 0 <= i < j < |Pick(order, values)| ==>
              Pick(order, values)[i].field != Pick(order, values)[j].field
    decreases |order|
  {
    if |order| > 0 {
      var rest := Pick(order[1..], values);
      PickDistinct(order[1..], values);
      forall i | 0 <= i < |rest|
        ensures order[0] != rest[i].field
      {
        PickedLater(order, values, rest[i].field, rest[i].value);
      }
    }
  }

  /** `PickContents` for one reading. */
  lemma PickHas<F>(order: seq<F>, values: map<F, Number>, f: F, n: Number)
    ensures Reading(f, n) in Pick(order, values) <==> f in order && f in values && values[f] == n
  {
    PickContents(order, values);
  }

  /** A reading picked from the tail of `order` belongs to a field listed
      after the first one. */
  lemma PickedLater<F>(order: seq<F>, values: map<F, Number>, f: F, n: Number)
    requires |order| > 0 && Reading(f, n) in Pick(order[1..], values)
    ensures exists k :: 1 <= k < |order| && order[k] == f
  {
    PickContents(order[1..], values);
    var k :| 0 <= k < |order[1..]| && order[1..][k] == f;
    assert order[k + 1] == f;
  }
}

=== FILE: messages.dfy ===
/** The lines the bot's messages are made of, and their exact text. A
    formatter produces a sequence of `Line`s; `Message` renders each one and
    joins them with newlines, as the bot's `"\n".join(lines)` does. */
module Messages {
  import opened Wrappers
  import opened Json
  import opened Layout
  import Numbers

  /** The text conversions the model does not define: Python's `:.1f`
      formatting, `str()` of a float, list or dict, local-time "%H:%M" of a
      Unix timestamp, and `str.capitalize`. */
  datatype Renderer = Renderer(
    fixed1: real -> string,
    repr: Json -> string,
    clock: real -> string,
    capitalize: string -> string)

  /** Python `str(v)`: "None", "True" and "False" for the constants, a
      string as itself, an int as decimal text `int()` reads back. */
  function Show(v: Json, rend: Renderer): (s: string)
    ensures v.Str? ==> s == v.s
    ensures v.Int? ==> Numbers.ParseInt(s) == Some(v.i)
  {
    match v
    case Null => "None"
    case Bool(b) => if b then "True" else "False"
    case Int(i) => Numbers.IntToStringRoundTrip(i); Numbers.IntToString(i)
    case Str(s) => s
    case _ => rend.repr(v)
  }

  /** The time shown for a forecast entry: a timestamp, or none at all. */
  datatype TimeLabel = NoTime | Stamped(stamp: real)

  /** The measurements of the current-weather message. */
  datatype CurrentField = Temperature | FeelsLike | Humidity | WindSpeed | Cloudiness

  /** The measurements of the alert message. */
  datatype AlertField = AlertTemperature | AlertFeelsLike | ExpectedRain | RainChance | AverageWind

  /** The inline extras of a forecast entry. */
  datatype ExtraField = ExtraTemperature | ExtraFeelsLike | ExtraRain | ExtraRainChance | ExtraWind

  /** Every line any of the four formatters can emit. Descriptions are held
      as found in the payload; the text capitalizes them. */
  datatype Line =
    // headers
    | CurrentHeader(city: string)
    | RainHeader(city: string)
    | ForecastHeader(city: string)
    | AlertHeader(city: string)
    // descriptions
    | CurrentStatus(description: string)
    | RainStatus(description: string)
    | AlertOutlook(description: string)
    // measurements
    | CurrentMeasure(current: Reading<CurrentField>)
    | AlertMeasure(alert: Reading<AlertField>)
    | RainLastHour(mm: Number)
    | RainLastThreeHours(mm: Number)
    | NoRainRecorded
    // forecast entries
    | Slot(time: TimeLabel, description: string, extras: seq<Reading<ExtraField>>)
    // trailers
    | Provenance
    | Prepare

  const ProvenanceText: string := "> 🔎 Dữ liệu từ OpenWeather"
  const PrepareText: string := "> 🔔 Hãy chuẩn bị kế hoạch phù hợp!"
  const ExtraSeparator: string := " • "
  const NoTimeText: string := "--:--"

  /** Python `int(pop * 100)`: a probability shown as a whole percentage,
      truncated toward zero. */
  function Percent(n: Number): (p: int)
    ensures 0.0 <= n.Real() ==> 0 <= p && p as real <= n.Real() * 100.0 < p as real + 1.0
    ensures n.Real() < 0.0 ==> p <= 0 && p as real - 1.0 < n.Real() * 100.0 <= p as real
  {
    Numbers.TruncTowardZero(n.Real() * 100.0)
  }

  function TimeText(t: TimeLabel, rend: Renderer): string {
    match t
    case NoTime => NoTimeText
    case Stamped(stamp) => rend.clock(stamp)
  }

  function CurrentMeasureText(r: Reading<CurrentField>, rend: Renderer): string {
    var n := r.value;
    match r.field
    case Temperature => "> 🌡️ **Nhiệt độ:** `" + rend.fixed1(n.Real()) + "°C`"
    case FeelsLike => "> 🤔 **Cảm giác như:** `" + rend.fixed1(n.Real()) + "°C`"
    case Humidity => "> 💧 **Độ ẩm:** `" + Show(n.ToJson(), rend) + "%`"
    case WindSpeed => "> 🌬️ **Gió:** `" + rend.fixed1(n.Real()) + " m/s`"
    case Cloudiness => "> ☁️ **Mây phủ:** `" + Show(n.ToJson(), rend) + "%`"
  }

  function AlertMeasureText(r: Reading<AlertField>, rend: Renderer): string {
    var n := r.value;
    match r.field
    case AlertTemperature => "> 🌡️ **Nhiệt độ:** `" + rend.fixed1(n.Real()) + "°C`"
    case AlertFeelsLike => "> 🤔 **Cảm giác như:** `" + rend.fixed1(n.Real()) + "°C`"
    case ExpectedRain => "> ☔ **Lượng mưa dự kiến:** `" + rend.fixed1(n.Real()) + " mm/3h`"
    case RainChance => "> 💧 **Xác suất mưa:** `" + Numbers.IntToString(Percent(n)) + "%`"
    case AverageWind => "> 🌬️ **Gió trung bình:** `" + rend.fixed1(n.Real()) + " m/s`"
  }

  function ExtraText(r: Reading<ExtraField>, rend: Renderer): (s: string)
    ensures s != ""
  {
    var n := r.value;
    match r.field
    case ExtraTemperature => "🌡️ " + rend.fixed1(n.Real()) + "°C"
    case ExtraFeelsLike => "🤔 cảm giác " + rend.fixed1(n.Real()) + "°C"
    case ExtraRain => "☔ " + rend.fixed1(n.Real()) + " mm/3h"
    case ExtraRainChance => "💧 " + Numbers.IntToString(Percent(n)) + "% mưa"
    case ExtraWind => "🌬️ " + rend.fixed1(n.Real()) + " m/s"
  }

  function ExtraTexts(xs: seq<Reading<ExtraField>>, rend: Renderer): (ts: seq<string>)
    ensures |ts| == |xs|
    ensures forall i :: 0 <= i < |xs| ==> ts[i] == ExtraText(xs[i], rend)
  {
    seq(|xs|, i requires 0 <= i < |xs| => ExtraText(xs[i], rend))
  }

  /** A forecast entry's line without its extras. */
  function SlotBase(time: TimeLabel, description: string, rend: Renderer): string {
    "> 🕒 `" + TimeText(time, rend) + "` • " + rend.capitalize(description)
  }

  /** A forecast entry's line: its time and description, then " • " and the
      extras when there are any. */
  function SlotText(time: TimeLabel, description: string, extras: seq<Reading<ExtraField>>, rend: Renderer): string {
    var detail := Join(ExtraSeparator, ExtraTexts(extras, rend));
    if detail != "" then SlotBase(time, description, rend) + ExtraSeparator + detail
    else SlotBase(time, description, rend)
  }

  /** The exact text of each line; the definition is the model of the
      formatters' f-strings. No line is empty. */
  function Text(l: Line, rend: Renderer): (s: string)
    ensures s != ""
  {
    match l
    case CurrentHeader(city) => "**Thời tiết hiện tại tại __" + city + "__**"
    case RainHeader(city) => "**Lượng mưa gần đây tại __" + city + "__**"
    case ForecastHeader(city) => "**📅 Dự báo 6 giờ tới cho __" + city + "__**"
    case AlertHeader(city) => "**⚠️ Cảnh báo 6 giờ tới cho __" + city + "__**"
    case CurrentStatus(d) => "> 🌤️ **Trạng thái:** " + rend.capitalize(d)
    case RainStatus(d) => "> 🌤️ **Trạng thái hiện tại:** " + rend.capitalize(d)
    case AlertOutlook(d) => "> 🌤️ **Dự báo:** " + rend.capitalize(d)
    case CurrentMeasure(r) => CurrentMeasureText(r, rend)
    case AlertMeasure(r) => AlertMeasureText(r, rend)
    case RainLastHour(mm) => "> ☔ **Trong 1 giờ qua:** `" + rend.fixed1(mm.Real()) + " mm`"
    case RainLastThreeHours(mm) => "> ☔ **Trong 3 giờ qua:** `" + rend.fixed1(mm.Real()) + " mm`"
    case NoRainRecorded => "> ☔ Không ghi nhận lượng mưa trong 3 giờ gần nhất."
    case Slot(time, d, extras) => SlotText(time, d, extras, rend)
    case Provenance => ProvenanceText
    case Prepare => PrepareText
  }

  /** Python `sep.join(parts)`: nothing for no parts, the first part
      followed by `sep` when more follow. */
  function Join(sep: string, parts: seq<string>): (r: string)
    ensures |parts| == 0 ==> r == ""
    ensures |parts| > 0 ==> StartsWith(r, parts[0])
    ensures |parts| > 1 ==> StartsWith(r, parts[0] + sep)
    decreases |parts|
  {
    if |parts| == 0 then ""
    else if |parts| == 1 then parts[0]
    else parts[0] + sep + Join(sep, parts[1..])
  }

  /** The joined text begins with the first part and ends with the last. */
  lemma {:induction false} JoinEnds(sep: string, parts: seq<string>)
    requires |parts| > 0
    ensures |Join(sep, parts)| >= |parts[0]| && Join(sep, parts)[..|parts[0]|] == parts[0]
    ensures |Join(sep, parts)| >= |parts[|parts| - 1]|
    ensures Join(sep, parts)[|Join(sep, parts)| - |parts[|parts| - 1]|..] == parts[|parts| - 1]
    decreases |parts|
  {
    if |parts| > 1 {
      var rest := Join(sep, parts[1..]);
      JoinEnds(sep, parts[1..]);
      var whole := parts[0] + sep + rest;
      assert whole[..|parts[0]|] == parts[0];
      assert whole[|whole| - |rest|..] == rest;
    }
  }

  /** Joining non-empty parts gives the empty text only when there are no parts. */
  lemma JoinEmpty(sep: string, parts: seq<string>)
    requires forall i :: 0 <= i < |parts| ==> parts[i] != ""
    ensures Join(sep, parts) == "" <==> |parts| == 0
  {
    if |parts| > 0 {
      JoinEnds(sep, parts);
    }
  }

  function Texts(lines: seq<Line>, rend: Renderer): (ts: seq<string>)
    ensures |ts| == |lines|
    ensures forall i :: 0 <= i < |lines| ==> ts[i] == Text(lines[i], rend)
  {
    seq(|lines|, i requires 0 <= i < |lines| => Text(lines[i], rend))
  }

  /** A whole message: the lines' texts joined with newlines. */
  function Message(lines: seq<Line>, rend: Renderer): (m: string)
    requires |lines| > 0
    ensures StartsWith(m, Text(lines[0], rend))
    ensures EndsWith(m, Text(lines[|lines| - 1], rend))
  {
    JoinEnds("\n", Texts(lines, rend));
    Join("\n", Texts(lines, rend))
  }

  predicate StartsWith(s: string, prefix: string) {
    |prefix| <= |s| && s[..|prefix|] == prefix
  }

  predicate EndsWith(s: string, suffix: string) {
    |suffix| <= |s| && s[|s| - |suffix|..] == suffix
  }

  /** A forecast entry's " • detail" suffix appears exactly when it has at
      least one extra; the extras are joined with " • ". */
  lemma SlotDetail(time: TimeLabel, description: string, extras: seq<Reading<ExtraField>>, rend: Renderer)
    ensures |extras| == 0 ==> Text(Slot(time, description, extras), rend) == SlotBase(time, description, rend)
    ensures |extras| > 0 ==>
              Text(Slot(time, description, extras), rend)
              == SlotBase(time, description, rend) + ExtraSeparator + Join(ExtraSeparator, ExtraTexts(extras, rend))
  {
    assert Text(Slot(time, description, extras), rend) == SlotText(time, description, extras, rend);
    JoinEmpty(ExtraSeparator, ExtraTexts(extras, rend));
  }
}

=== FILE: numbers.dfy ===
/** Python's integer text conversions as the bot uses them: `str(i)` on an int,
    `str.strip()`, `int(s)` on a base-10 string, and `int(x)` on a number
    (truncation toward zero). */
module Numbers {
  import opened Wrappers

  // ---------------------------------------------------------------------------
  // str(i) for an int
  // ---------------------------------------------------------------------------

  function DigitChar(d: nat): char
    requires d < 10
  {
    "0123456789"[d]
  }

  /** Decimal text of a natural number, most significant digit first, no padding. */
  function NatToString(n: nat): (s: string)
    ensures |s| > 0
    ensures forall i :: 0 <= i < |s| ==> IsDigit(s[i])
    decreases n
  {
    if n < 10 then [DigitChar(n)] else NatToString(n / 10) + [DigitChar(n % 10)]
  }

  /** Python `str(i)`: a leading '-' for negatives, then the decimal digits. */
  function IntToString(i: int): (s: string)
    ensures |s| > 0 && (s[0] == '-' <==> i < 0)
    ensures forall k :: 0 <= k < |s| ==> IsDigit(s[k]) || (k == 0 && s[k] == '-')
  {
    if i < 0 then "-" + NatToString(-i) else NatToString(i)
  }

  // ---------------------------------------------------------------------------
  // str.strip()
  // ---------------------------------------------------------------------------

  /** The characters Python's `str.isspace` accepts, so the ones `strip()` removes. */
  predicate IsSpace(c: char) {
    c in {'\U{0009}', '\U{000A}', '\U{000B}', '\U{000C}', '\U{000D}', '\U{001C}', '\U{001D}', '\U{001E}',
          '\U{001F}', ' ', '\U{0085}', '\U{00A0}', '\U{1680}', '\U{2000}', '\U{2001}', '\U{2002}',
          '\U{2003}', '\U{2004}', '\U{2005}', '\U{2006}', '\U{2007}', '\U{2008}', '\U{2009}', '\U{200A}',
          '\U{2028}', '\U{2029}', '\U{202F}', '\U{205F}', '\U{3000}'}
  }

  predicate AllSpace(s: string) {
    forall i :: 0 <= i < |s| ==> IsSpace(s[i])
  }

  function StripLeft(s: string): (r: string)
    ensures |r| <= |s| && r == s[|s| - |r|..]
    ensures AllSpace(s[..|s| - |r|])
    ensures |r| > 0 ==> !IsSpace(r[0])
  {
    if |s| > 0 && IsSpace(s[0]) then StripLeft(s[1..]) else s
  }

  function StripRight(s: string): (r: string)
    ensures |r| <= |s| && r == s[..|r|]
    ensures AllSpace(s[|r|..])
    ensures |r| > 0 ==> !IsSpace(r[|r| - 1])
  {
    if |s| > 0 && IsSpace(s[|s| - 1]) then StripRight(s[..|s| - 1]) else s
  }

  /** Python `s.strip()`: drop leading and trailing whitespace. The result
      is a slice of `s`, everything cut from either end is whitespace, and
      neither end of the result is. */
  function Strip(s: string): (r: string)
    ensures |r| <= |s|
    ensures |r| > 0 ==> !IsSpace(r[0]) && !IsSpace(r[|r| - 1])
  {
    var l := StripLeft(s);
    var r := StripRight(l);
    assert |r| > 0 ==> r[0] == l[0];
    r
  }

  /** What `strip()` returns is a slice of its input, and what it cuts from
      either end is whitespace. */
  lemma StripIsSlice(s: string)
    ensures var r := Strip(s);
            exists lo :: 0 <= lo <= |s| - |r| && r == s[lo..lo + |r|] && AllSpace(s[..lo]) && AllSpace(s[lo + |r|..])
  {
    StripSlices(s, StripLeft(s), Strip(s));
  }

  /** Cutting whitespace from the front and then from the back leaves a
      slice of the original text. */
  lemma StripSlices(s: string, l: string, r: string)
    requires |l| <= |s| && l == s[|s| - |l|..] && AllSpace(s[..|s| - |l|])
    requires |r| <= |l| && r == l[..|r|] && AllSpace(l[|r|..])
    ensures exists lo :: 0 <= lo <= |s| - |r| && r == s[lo..lo + |r|] && AllSpace(s[..lo]) && AllSpace(s[lo + |r|..])
  {
    var lo := |s| - |l|;
    assert s[lo..lo + |r|] == l[..|r|];
    assert s[lo + |r|..] == l[|r|..];
  }

  /** Stripping keeps every character that is not whitespace. */
  lemma StripKeeps(s: string, k: int)
    requires 0 <= k < |s| && !IsSpace(s[k])
    ensures s[k] in Strip(s)
  {
    var l := StripLeft(s);
    var cut := |s| - |l|;
    assert l[k - cut] == s[k];
    var r := StripRight(l);
    assert r[k - cut] == s[k];
  }

  // ---------------------------------------------------------------------------
  // int(s) for a base-10 string
  // ---------------------------------------------------------------------------

  predicate IsDigit(c: char) {
    '0' <= c <= '9'
  }

  /** The digit part Python's `int()` accepts: ASCII digits, with single
      underscores allowed only between two digits ("1_000"). */
  predicate ValidDigits(s: string) {
    && |s| > 0
    && IsDigit(s[0])
    && IsDigit(s[|s| - 1])
    && (forall i :: 0 <= i < |s| ==> IsDigit(s[i]) || s[i] == '_')
    && (forall i :: 0 <= i < |s| - 1 ==> s[i] == '_' ==> s[i + 1] != '_')
  }

  /** Value of a digit string, read left to right; underscores are skipped. */
  function DigitsValue(s: string): nat
    decreases |s|
  {
    if |s| == 0 then 0
    else
      var last := s[|s| - 1];
      if IsDigit(last) then DigitsValue(s[..|s| - 1]) * 10 + (last as int - '0' as int)
      else DigitsValue(s[..|s| - 1])
  }

  predicate IsSign(c: char) {
    c == '+' || c == '-'
  }

  /** Python `int(s)` on text that has already been stripped: an optional sign
      followed by a valid digit part; None is the ValueError case. Accepted
      text holds nothing but digits, underscores and one leading sign; it
      starts with a digit after that sign, ends in a digit, and never has two
      underscores in a row. */
  function ParseInt(s: string): (r: Option<int>)
    ensures r.Some? ==> |s| > 0 && IsDigit(s[|s| - 1])
    ensures r.Some? ==> IsDigit(s[0]) || (IsSign(s[0]) && |s| > 1 && IsDigit(s[1]))
    ensures r.Some? ==> forall i :: 0 <= i < |s| ==> IsDigit(s[i]) || s[i] == '_' || (i == 0 && IsSign(s[i]))
    ensures r.Some? ==> forall i :: 0 <= i < |s| - 1 ==> s[i] == '_' ==> s[i + 1] != '_'
  {
    if |s| > 0 && IsSign(s[0]) then
      var body := s[1..];
      if ValidDigits(body) then
        SignedCharacters(s);
        var magnitude: int := DigitsValue(body);
        Some(if s[0] == '-' then -magnitude else magnitude)
      else None
    else if ValidDigits(s) then Some(DigitsValue(s))
    else None
  }

  /** A sign followed by a valid digit part holds only digits, underscores
      and that sign. */
  lemma SignedCharacters(s: string)
    requires |s| > 0 && IsSign(s[0]) && ValidDigits(s[1..])
    ensures IsDigit(s[|s| - 1]) && |s| > 1 && IsDigit(s[1])
    ensures forall i :: 0 <= i < |s| ==> IsDigit(s[i]) || s[i] == '_' || (i == 0 && IsSign(s[i]))
    ensures forall i :: 0 <= i < |s| - 1 ==> s[i] == '_' ==> s[i + 1] != '_'
  {
    forall i | 1 <= i < |s|
      ensures IsDigit(s[i]) || s[i] == '_'
      ensures i < |s| - 1 && s[i] == '_' ==> s[i + 1] != '_'
    {
      assert s[i] == s[1..][i - 1];
      if i < |s| - 1 {
        assert s[i + 1] == s[1..][i];
      }
    }
    assert s[|s| - 1] == s[1..][|s| - 2];
    assert s[1] == s[1..][0];
  }

  /** An underscore first, last, right after the sign, or next to another
      underscore makes the text invalid. */
  lemma MisplacedUnderscoreRejected(s: string, i: int)
    requires 0 <= i < |s| && s[i] == '_'
    requires i == 0 || i == |s| - 1 || (i == 1 && IsSign(s[0])) || (i + 1 < |s| && s[i + 1] == '_')
    ensures ParseInt(s).None?
  {
  }

  // ---------------------------------------------------------------------------
  // Non-canonical text int() reads as the canonical value
  // ---------------------------------------------------------------------------

  /** How many digits `s` holds; underscores do not count. */
  function DigitCount(s: string): nat
    decreases |s|
  {
    if |s| == 0 then 0
    else DigitCount(s[..|s| - 1]) + (if IsDigit(s[|s| - 1]) then 1 else 0)
  }

  function Pow10(n: nat): nat {
    if n == 0 then 1 else 10 * Pow10(n - 1)
  }

  /** The digits of `y` shift those of `x` up by one decimal place each. */
  lemma {:induction false} DigitsValueAppend(x: string, y: string)
    ensures DigitsValue(x + y) == DigitsValue(x) * Pow10(DigitCount(y)) + DigitsValue(y)
    decreases |y|
  {
    if |y| == 0 {
      assert x + y == x;
    } else {
      var init := y[..|y| - 1];
      var last := y[|y| - 1];
      assert (x + y)[..|x + y| - 1] == x + init;
      assert (x + y)[|x + y| - 1] == last;
      DigitsValueAppend(x, init);
      if IsDigit(last) {
        ShiftByTen(DigitsValue(x), Pow10(DigitCount(init)), DigitsValue(init));
      }
    }
  }

  lemma ShiftByTen(high: nat, scale: nat, low: nat)
    ensures (high * scale + low) * 10 == high * (10 * scale) + low * 10
  {
  }

  lemma {:induction false} ZerosValue(z: string)
    requires forall i :: 0 <= i < |z| ==> z[i] == '0'
    ensures DigitsValue(z) == 0
    decreases |z|
  {
    if |z| > 0 {
      ZerosValue(z[..|z| - 1]);
    }
  }

  /** A leading '+' keeps the value of the digits and a leading '-' negates it. */
  lemma SignedValue(t: string)
    requires ValidDigits(t)
    ensures ParseInt("+" + t) == ParseInt(t) == Some(DigitsValue(t))
    ensures ParseInt("-" + t) == Some(-(DigitsValue(t) as int))
  {
    assert ("+" + t)[1..] == t;
    assert ("-" + t)[1..] == t;
  }

  /** Leading zeros do not change the value: `int("007") == int("7")`. */
  lemma LeadingZerosKeepValue(z: string, t: string)
    requires forall i :: 0 <= i < |z| ==> z[i] == '0'
    requires ValidDigits(t)
    ensures ParseInt(z + t) == ParseInt(t)
  {
    var s := z + t;
    forall i | 0 <= i < |s| - 1 && s[i] == '_'
      ensures s[i + 1] != '_'
    {
      assert i >= |z| && s[i] == t[i - |z|] && s[i + 1] == t[i + 1 - |z|];
    }
    assert ValidDigits(s);
    DigitsValueAppend(z, t);
    ZerosValue(z);
  }

  /** A single underscore between digits does not change the value:
      `int("1_000") == int("1000")`. */
  lemma UnderscoreKeepsValue(a: string, b: string)
    requires ValidDigits(a) && ValidDigits(b)
    ensures ParseInt(a + "_" + b) == ParseInt(a + b)
    ensures ParseInt(a + b).Some?
  {
    JoinedDigitsValid(a, b);
    SplitDigitsValid(a, b);
    DigitsValueAppend(a, b);
    DigitsValueAppend(a + "_", b);
    assert (a + "_")[..|a + "_"| - 1] == a;
    assert a + "_" + b == (a + "_") + b;
  }

  lemma JoinedDigitsValid(a: string, b: string)
    requires ValidDigits(a) && ValidDigits(b)
    ensures ValidDigits(a + b)
  {
    var joined := a + b;
    forall i | 0 <= i < |joined| - 1 && joined[i] == '_'
      ensures joined[i + 1] != '_'
    {
      if i < |a| {
        assert joined[i] == a[i];
        assert i < |a| - 1 && joined[i + 1] == a[i + 1];
      } else {
        assert joined[i] == b[i - |a|] && joined[i + 1] == b[i + 1 - |a|];
      }
    }
  }

  lemma SplitDigitsValid(a: string, b: string)
    requires ValidDigits(a) && ValidDigits(b)
    ensures ValidDigits(a + "_" + b)
  {
    var split := a + "_" + b;
    forall i | 0 <= i < |split| - 1 && split[i] == '_'
      ensures split[i + 1] != '_'
    {
      if i < |a| {
        assert split[i] == a[i];
        assert i < |a| - 1 && split[i + 1] == a[i + 1];
      } else if i > |a| {
        assert split[i] == b[i - |a| - 1] && split[i + 1] == b[i - |a|];
      } else {
        assert split[i + 1] == b[0];
      }
    }
  }

  /** `int("+5") == 5` and `int("007") == 7`. */
  lemma SignAndZerosExamples()
    ensures ParseInt("+5") == Some(5)
    ensures ParseInt("007") == Some(7)
  {
    SignedValue("5");
    LeadingZerosKeepValue("00", "7");
    assert "00" + "7" == "007";
  }

  /** `int("1_000") == 1000`. */
  lemma UnderscoreExample()
    ensures ParseInt("1_000") == Some(1000)
  {
    UnderscoreKeepsValue("1", "000");
    assert "1" + "_" + "000" == "1_000" && "1" + "000" == "1000";
    assert DigitsValue("1") == 1;
    assert "10"[..1] == "1";
    assert DigitsValue("10") == 10;
    assert "100"[..2] == "10";
    assert DigitsValue("100") == 100;
    assert "1000"[..3] == "100";
    assert DigitsValue("1000") == 1000;
  }

  /** `int("_1")` and `int("1__0")` raise. */
  lemma UnderscoreRejectExamples()
    ensures ParseInt("_1") == None
    ensures ParseInt("1__0") == None
  {
    MisplacedUnderscoreRejected("_1", 0);
    MisplacedUnderscoreRejected("1__0", 1);
  }

  /** `str` and `int` are inverse on integers: parsing the decimal text of a
      natural gives it back. */
  lemma {:induction false} NatToStringRoundTrip(n: nat)
    ensures ValidDigits(NatToString(n))
    ensures DigitsValue(NatToString(n)) == n
    decreases n
  {
    var s := NatToString(n);
    if n >= 10 {
      NatToStringRoundTrip(n / 10);
      var p := NatToString(n / 10);
      assert s[..|s| - 1] == p;
      assert s[|s| - 1] == DigitChar(n % 10);
    }
  }

  lemma IntToStringRoundTrip(i: int)
    ensures ParseInt(IntToString(i)) == Some(i)
  {
    if i < 0 {
      var digits := NatToString(-i);
      NatToStringRoundTrip(-i);
      var s := "-" + digits;
      assert s[0] == '-' && s[1..] == digits;
    } else {
      var digits := NatToString(i);
      NatToStringRoundTrip(i);
      assert IsDigit(digits[0]);
    }
  }

  /** `str(i) == "200"` holds for exactly one integer, 200. */
  lemma IntToStringIs200(i: int)
    ensures IntToString(i) == "200" <==> i == 200
  {
    assert NatToString(2) == "2";
    assert NatToString(20) == NatToString(2) + "0" == "20";
    assert NatToString(200) == NatToString(20) + "0" == "200";
    if IntToString(i) == "200" {
      IntToStringRoundTrip(i);
      IntToStringRoundTrip(200);
    }
  }

  /** Decimal text neither begins nor ends with whitespace. */
  lemma DecimalEdges(i: int)
    ensures var s := IntToString(i); |s| > 0 && !IsSpace(s[0]) && !IsSpace(s[|s| - 1])
  {
    var s := IntToString(i);
    var digits := if i < 0 then NatToString(-i) else NatToString(i);
    assert s[|s| - 1] == digits[|digits| - 1];
    DigitNotSpace(digits[|digits| - 1]);
    if i >= 0 {
      DigitNotSpace(digits[0]);
    }
  }

  lemma DigitNotSpace(c: char)
    requires IsDigit(c)
    ensures !IsSpace(c)
  {
  }

  /** Stripping decimal text padded with whitespace gives the decimal text back. */
  lemma StripPaddedDecimal(i: int, pre: string, post: string)
    requires AllSpace(pre) && AllSpace(post)
    ensures Strip(pre + IntToString(i) + post) == IntToString(i)
  {
    DecimalEdges(i);
    StripPadded(pre, IntToString(i), post);
  }

  /** Stripping removes surrounding whitespace and nothing else. */
  lemma {:induction false} StripPadded(pre: string, s: string, post: string)
    requires AllSpace(pre) && AllSpace(post)
    requires |s| > 0 && !IsSpace(s[0]) && !IsSpace(s[|s| - 1])
    ensures Strip(pre + s + post) == s
  {
    assert pre + s + post == pre + (s + post);
    StripLeftPadded(pre, s + post);
    StripRightPadded(s, post);
  }

  lemma {:induction false} StripLeftPadded(pre: string, s: string)
    requires AllSpace(pre)
    requires |s| > 0 && !IsSpace(s[0])
    ensures StripLeft(pre + s) == s
    decreases |pre|
  {
    if |pre| > 0 {
      assert (pre + s)[1..] == pre[1..] + s;
      StripLeftPadded(pre[1..], s);
    } else {
      assert pre + s == s;
    }
  }

  lemma {:induction false} StripRightPadded(s: string, post: string)
    requires AllSpace(post)
    requires |s| > 0 && !IsSpace(s[|s| - 1])
    ensures StripRight(s + post) == s
    decreases |post|
  {
    if |post| > 0 {
      assert (s + post)[..|s + post| - 1] == s + post[..|post| - 1];
      StripRightPadded(s, post[..|post| - 1]);
    } else {
      assert s + post == s;
    }
  }

  // ---------------------------------------------------------------------------
  // int(x) for a number
  // ---------------------------------------------------------------------------

  /** Python `int(x)` on a number: drops the fractional part, toward zero. */
  function TruncTowardZero(x: real): (r: int)
    ensures 0.0 <= x ==> 0 <= r && r as real <= x < r as real + 1.0
    ensures x < 0.0 ==> r <= 0 && r as real - 1.0 < x <= r as real
  {
    if x >= 0.0 then x.Floor else -((-x).Floor)
  }
}

=== FILE: provider.dfy ===
/** The weather provider as the bot's commands see it: the outcome of one fetch
    and the check of the provider's embedded status code (`ensure_success`). */
module Provider {
  import opened Wrappers
  import opened Json
  import Numbers

  /** Text of the RuntimeError raised when the HTTP request fails (transport
      error, timeout or non-2xx status). */
  const FetchFailure: string := "Không thể lấy dữ liệu từ OpenWeather."

  /** Message used when the provider reports an error without a `message`. */
  const UnknownProviderError: string := "OpenWeather trả về lỗi không xác định."

  /** One request to the provider: either a decoded JSON object or a transport
      failure. The HTTP exchange itself is not modelled. */
  datatype FetchOutcome = Fetched(payload: Object) | Unreachable

  /** `str(code) == "200"` for a status code that is not None. Floats print
      with a '.', an exponent, "inf" or "nan", and lists and dicts print with
      brackets, so none of those can print as "200". */
  predicate PrintsAs200(code: Json)
    ensures PrintsAs200(code) ==> code.Int? || code.Str?
  {
    match code
    case Int(i) => Numbers.IntToString(i) == "200"
    case Str(s) => s == "200"
    case Bool(b) => (if b then "True" else "False") == "200"
    case _ => false
  }

  /** The status codes `ensure_success` accepts: exactly the integer 200 and the string "200". */
  lemma PrintsAs200Exactly(code: Json)
    ensures PrintsAs200(code) <==> code == Int(200) || code == Str("200")
  {
    if code.Int? {
      Numbers.IntToStringIs200(code.i);
    }
  }

  /** `ensure_success(data)`: passes when `cod` is missing, None, or prints as
      "200"; otherwise fails with the payload's `message` (whatever JSON value
      it holds) or the fixed fallback text. */
  function EnsureSuccess(data: Object): (r: Verdict<Json>)
    ensures r.Accepted? <==> "cod" !in data || data["cod"] == Null || data["cod"] == Int(200) || data["cod"] == Str("200")
    ensures r.Rejected? && "message" in data ==> r.reason == data["message"]
    ensures r.Rejected? && "message" !in data ==> r.reason == Str(UnknownProviderError)
  {
    match Get(data, "cod")
    case None => Accepted
    case Some(code) =>
      if code == Null then Accepted
      else
        PrintsAs200Exactly(code);
        if PrintsAs200(code) then Accepted
        else Rejected(if "message" in data then data["message"] else Str(UnknownProviderError))
  }

  /** The guarded part of every command: fetch, then `ensure_success`. The
      error is the value the caught RuntimeError was raised with. */
  function FetchChecked(fetch: FetchOutcome): (r: Result<Object, Json>)
    ensures fetch.Unreachable? ==> r == Err(Str(FetchFailure))
    ensures fetch.Fetched? && EnsureSuccess(fetch.payload).Accepted? ==> r == Ok(fetch.payload)
    ensures fetch.Fetched? && EnsureSuccess(fetch.payload).Rejected? ==> r == Err(EnsureSuccess(fetch.payload).reason)
  {
    match fetch
    case Unreachable => Err(Str(FetchFailure))
    case Fetched(payload) =>
      match EnsureSuccess(payload)
      case Accepted => Ok(payload)
      case Rejected(message) => Err(message)
  }
}

=== FILE: settings.dfy ===
/** The bot's configuration: reading an integer ID (`_coerce_int`) and
    resolving every setting from the `BOT_CONFIG` JSON document, the process
    environment and built-in defaults (`load_config`). */
module Settings {
  import opened Wrappers
  import opened Json
  import Numbers

  const ConfigVariable: string := "BOT_CONFIG"
  const TokenKey: string := "DISCORD_TOKEN"
  const ApiKeyKey: string := "WEATHER_API_KEY"
  const CityKey: string := "CITY"
  const UnitsKey: string := "UNITS"
  const LangKey: string := "LANG"
  const GuildKey: string := "DISCORD_GUILD_ID"

  const DefaultCity: string := "Ho Chi Minh"
  const DefaultUnits: string := "metric"
  const DefaultLang: string := "vi"

  const InvalidJson: string := "BOT_CONFIG must contain valid JSON."
  const MissingToken: string := "Missing DISCORD_TOKEN in configuration."
  const MissingApiKey: string := "Missing WEATHER_API_KEY in configuration."
  const NotNumeric: string := " must be a numeric ID."
  const NotIntegral: string := " must be a string of digits or an integer."

  /** The resolved configuration. Settings taken from the JSON document keep
      whatever JSON value they hold; settings taken from the environment or
      the defaults are strings. */
  datatype Config = Config(
    token: Json,
    weatherApiKey: Json,
    city: Json,
    units: Json,
    lang: Json,
    guildId: Option<int>)

  // ---------------------------------------------------------------------------
  // _coerce_int
  // ---------------------------------------------------------------------------

  /** `_coerce_int(raw, field_name=fieldName)`: None and "" mean "not set";
      an int (a bool counts as one) is kept; a string is stripped and parsed
      as a base-10 integer; anything else is rejected. The error is the
      ValueError's text. */
  function CoerceInt(raw: Json, fieldName: string): (r: Result<Option<int>, string>)
    ensures r == Ok(None) <==> raw == Null || raw == Str("")
    ensures raw.Int? ==> r == Ok(Some(raw.i))
    ensures raw.Bool? ==> r == Ok(Some(if raw.b then 1 else 0))
    ensures raw.Str? && raw.s != "" ==>
              r == (match Numbers.ParseInt(Numbers.Strip(raw.s))
                    case Some(i) => Ok(Some(i))
                    case None => Err(fieldName + NotNumeric))
    ensures raw.Float? || raw.Arr? || raw.Obj? ==> r == Err(fieldName + NotIntegral)
  {
    match raw
    case Null => Ok(None)
    case Int(i) => Ok(Some(i))
    case Bool(b) => Ok(Some(if b then 1 else 0))
    case Str(s) =>
      if s == "" then Ok(None)
      else
        (match Numbers.ParseInt(Numbers.Strip(s))
         case Some(i) => Ok(Some(i))
         case None => Err(fieldName + NotNumeric))
    case _ => Err(fieldName + NotIntegral)
  }

  /** An integer written in decimal, with any whitespace around it, reads
      back as that integer. */
  lemma CoerceIntReadsDecimal(i: int, pre: string, post: string, fieldName: string)
    requires Numbers.AllSpace(pre) && Numbers.AllSpace(post)
    ensures CoerceInt(Str(pre + Numbers.IntToString(i) + post), fieldName) == Ok(Some(i))
  {
    var digits := Numbers.IntToString(i);
    Numbers.DecimalEdges(i);
    Numbers.StripPaddedDecimal(i, pre, post);
    Numbers.IntToStringRoundTrip(i);
    assert |pre + digits + post| > 0;
  }

  /** Text that is only whitespace is set but not a number. */
  lemma CoerceIntRejectsBlank(s: string, fieldName: string)
    requires s != "" && Numbers.AllSpace(s)
    ensures CoerceInt(Str(s), fieldName) == Err(fieldName + NotNumeric)
  {
    BlankStripsToEmpty(s);
  }

  /** Text holding a character that is not whitespace, a digit, an
      underscore or a sign is set but not a number. */
  lemma CoerceIntRejectsForeign(s: string, k: int, fieldName: string)
    requires 0 <= k < |s|
    requires !Numbers.IsSpace(s[k]) && !Numbers.IsDigit(s[k]) && s[k] != '_' && !Numbers.IsSign(s[k])
    ensures CoerceInt(Str(s), fieldName) == Err(fieldName + NotNumeric)
  {
    Numbers.StripKeeps(s, k);
  }

  lemma {:induction false} BlankStripsToEmpty(s: string)
    requires Numbers.AllSpace(s)
    ensures Numbers.Strip(s) == ""
    decreases |s|
  {
    if |s| > 0 {
      BlankStripsToEmpty(s[1..]);
    }
  }

  // ---------------------------------------------------------------------------
  // load_config
  // ---------------------------------------------------------------------------

  /** `payload.get(key) or os.getenv(key)`, as far as the bot uses it: the
      first truthy value, or None when both are falsy or missing. */
  function Setting(doc: Object, env: map<string, string>, key: string): (r: Option<Json>)
    ensures r.Some? ==> Truthy(r.value)
    ensures key in doc && Truthy(doc[key]) ==> r == Some(doc[key])
    ensures !(key in doc && Truthy(doc[key])) && key in env && env[key] != "" ==> r == Some(Str(env[key]))
    ensures r.None? <==> !(key in doc && Truthy(doc[key])) && !(key in env && env[key] != "")
  {
    if key in doc && Truthy(doc[key]) then Some(doc[key])
    else if key in env && env[key] != "" then Some(Str(env[key]))
    else None
  }

  /** A setting with a default: the JSON value if truthy, else the
      environment variable if non-empty, else the default. */
  function Resolve(doc: Object, env: map<string, string>, key: string, default: string): (r: Json)
    ensures default != "" ==> Truthy(r)
    ensures key in doc && Truthy(doc[key]) ==> r == doc[key]
    ensures !(key in doc && Truthy(doc[key])) && key in env && env[key] != "" ==> r == Str(env[key])
    ensures !(key in doc && Truthy(doc[key])) && !(key in env && env[key] != "") ==> r == Str(default)
  {
    match Setting(doc, env, key)
    case Some(v) => v
    case None => Str(default)
  }

  /** The JSON document `BOT_CONFIG` holds, `{}` when the variable is unset
      or empty, None when it is not valid JSON. `decode` is `json.loads`
      (None for a JSONDecodeError). */
  function Document(env: map<string, string>, decode: string -> Option<Json>): (r: Option<Object>)
    requires DecodesToObject(env, decode)
    ensures !(ConfigVariable in env && env[ConfigVariable] != "") ==> r == Some(map[])
    ensures ConfigVariable in env && env[ConfigVariable] != "" ==>
              (r.Some? <==> decode(env[ConfigVariable]).Some?) &&
              (r.Some? ==> Some(Obj(r.value)) == decode(env[ConfigVariable]))
  {
    if ConfigVariable in env && env[ConfigVariable] != "" then
      match decode(env[ConfigVariable])
      case None => None
      case Some(v) => Some(v.fields)
    else Some(map[])
  }

  /** The bot reads `BOT_CONFIG` with `.get`, so a valid document must be an object. */
  predicate DecodesToObject(env: map<string, string>, decode: string -> Option<Json>) {
    ConfigVariable in env && env[ConfigVariable] != "" && decode(env[ConfigVariable]).Some? ==>
      decode(env[ConfigVariable]).value.Obj?
  }

  /** `load_config()` over the environment `env`. The checks run in the
      order `load_config` uses: the document, the token, the API key, the guild ID,
      which is parsed only when it is truthy. */
  function LoadConfig(env: map<string, string>, decode: string -> Option<Json>): (r: Result<Config, string>)
    requires DecodesToObject(env, decode)
    ensures Document(env, decode).None? ==> r == Err(InvalidJson)
    ensures Document(env, decode).Some? ==>
              var doc := Document(env, decode).value;
              && (Setting(doc, env, TokenKey).None? ==> r == Err(MissingToken))
              && (Setting(doc, env, TokenKey).Some? && Setting(doc, env, ApiKeyKey).None? ==> r == Err(MissingApiKey))
    ensures r.Ok? ==>
              var doc := Document(env, decode).value;
              && Document(env, decode).Some?
              && Some(r.value.token) == Setting(doc, env, TokenKey)
              && Some(r.value.weatherApiKey) == Setting(doc, env, ApiKeyKey)
              && r.value.city == Resolve(doc, env, CityKey, DefaultCity)
              && r.value.units == Resolve(doc, env, UnitsKey, DefaultUnits)
              && r.value.lang == Resolve(doc, env, LangKey, DefaultLang)
              && (Setting(doc, env, GuildKey).None? ==> r.value.guildId.None?)
              && (Setting(doc, env, GuildKey).Some? ==> Ok(r.value.guildId) == CoerceInt(Setting(doc, env, GuildKey).value, GuildKey))
    ensures r.Err? && Document(env, decode).Some? && Setting(Document(env, decode).value, env, TokenKey).Some?
              && Setting(Document(env, decode).value, env, ApiKeyKey).Some? ==>
              var raw := Setting(Document(env, decode).value, env, GuildKey);
              raw.Some? && CoerceInt(raw.value, GuildKey) == Err(r.error)
  {
    match Document(env, decode)
    case None => Err(InvalidJson)
    case Some(doc) =>
      match Setting(doc, env, TokenKey)
      case None => Err(MissingToken)
      case Some(token) =>
        match Setting(doc, env, ApiKeyKey)
        case None => Err(MissingApiKey)
        case Some(apiKey) =>
          var guild := match Setting(doc, env, GuildKey)
            case None => Ok(None)
            case Some(raw) => CoerceInt(raw, GuildKey);
          match guild
          case Err(e) => Err(e)
          case Ok(guildId) =>
            Ok(Config(token, apiKey,
                      Resolve(doc, env, CityKey, DefaultCity),
                      Resolve(doc, env, UnitsKey, DefaultUnits),
                      Resolve(doc, env, LangKey, DefaultLang),
                      guildId))
  }

  /** A loaded configuration always has a token and an API key, and a city,
      units and language that are set. */
  lemma LoadedConfigIsComplete(env: map<string, string>, decode: string -> Option<Json>)
    requires DecodesToObject(env, decode)
    requires LoadConfig(env, decode).Ok?
    ensures var c := LoadConfig(env, decode).value;
            Truthy(c.token) && Truthy(c.weatherApiKey) && Truthy(c.city) && Truthy(c.units) && Truthy(c.lang)
  {
  }

  /** Without `BOT_CONFIG` the configuration comes from the environment alone:
      token and key as given, defaults for what is unset, and no guild. */
  lemma EnvironmentOnly(token: string, apiKey: string, decode: string -> Option<Json>)
    requires token != "" && apiKey != ""
    ensures LoadConfig(map[TokenKey := token, ApiKeyKey := apiKey], decode)
            == Ok(Config(Str(token), Str(apiKey), Str(DefaultCity), Str(DefaultUnits), Str(DefaultLang), None))
  {
  }

  /** `LANG` is also the POSIX locale variable, so when the document sets no
      language, a process started under a locale such as "C.UTF-8" requests
      that locale's name as the provider language instead of "vi". */
  lemma LocaleBecomesLanguage(token: string, apiKey: string, locale: string, decode: string -> Option<Json>)
    requires token != "" && apiKey != "" && locale != ""
    ensures LoadConfig(map[TokenKey := token, ApiKeyKey := apiKey, LangKey := locale], decode).Ok?
    ensures LoadConfig(map[TokenKey := token, ApiKeyKey := apiKey, LangKey := locale], decode).value.lang == Str(locale)
  {
  }

  /** A guild ID given in the document as decimal text, padded or not, is
      loaded as that integer. */
  lemma GuildIdFromText(env: map<string, string>, decode: string -> Option<Json>, i: int, pre: string, post: string)
    requires DecodesToObject(env, decode)
    requires Document(env, decode).Some?
    requires GuildKey in Document(env, decode).value
    requires Document(env, decode).value[GuildKey] == Str(pre + Numbers.IntToString(i) + post)
    requires Numbers.AllSpace(pre) && Numbers.AllSpace(post)
    requires LoadConfig(env, decode).Ok?
    ensures LoadConfig(env, decode).value.guildId == Some(i)
  {
    CoerceIntReadsDecimal(i, pre, post, GuildKey);
    assert Numbers.IntToString(i) != "";
  }
}

=== FILE: wrappers.dfy ===
/** The two shapes the bot's outcomes take: a value that may be missing
    (Python's `None`), and a value or the error a raised exception carries. */
module Wrappers {

  datatype Option<+T> = None | Some(value: T)

  datatype Result<+R, +E> = Ok(value: R) | Err(error: E)

  /** The verdict of a check that returns nothing when it accepts and raises
      with a reason when it rejects. */
  datatype Verdict<+E> = Accepted | Rejected(reason: E)
}
